=== FILE: README.md ===
# pdf_replacer text-substitution engine, modelled in Dafny

This project models the core of `pdf_replacer`, a tool that swaps literal text inside a PDF
page's content stream. The model covers three parts:

- **ToUnicode CMap handling and the per-font codec** (`UnicodeTools`, `Utf16`).
  - A parsed ToUnicode CMap (ISO 32000-1 section 9.10.3) maps codes to UTF-16BE payloads.
    The model turns it into a map from codes to strings: bytes are paired into big-endian
    units, entries that are a single lone surrogate are dropped, and the rest are decoded
    as in section 2.2 of RFC 2781.
  - Each page gets a font table. A `UnicodeMapper` decodes and encodes string operands
    according to the font's encoding name.
- **The newer walk** (`PdfReplacer`, with `Substitution`). This is a left-to-right pass
  over a page's operations.
  - `Tf` sets the current font and encoding.
  - `Tj` and `TJ` (ISO 32000-1 section 9.4.3) are rewritten only under one of seven accepted encoding
    names.
  - A `Tj` string is decoded, the ordered rule list is applied to it (each rule is a
    replace-all), and the string is re-encoded when some rule matched.
  - A `TJ` operand list is flattened to text. If the text changed, the operation becomes
    a `Tj` holding one literal string.
- **The older single-rule walk and its driver** (`LegacyReplacer`). A `Tj` string is
  replaced only when its text equals the key exactly. There is no encoding guard. A
  non-name `Tf` operand aborts. Rules run as separate passes, page by page and then rule
  by rule.

The collaborator library is passed in as a `Library` value made of three total functions:
`Document::decode_text`, `Document::encode_text` and the CMap parser. Pages hold
operations that are already decoded. Every Rust panic the core can reach becomes the
error `Panicked`. The panics the core can reach are:
- the odd-length `assert!` and the `from_utf16` unwrap of the CMap transform, where
  the order of checks follows hash-map iteration over the CMap's codes;
- the unknown-ToUnicode-kind `panic!`, met while fonts are visited in sorted name order;
- the `Identity-H` unwrap of a missing CMap, met only during the walk, after the whole
  font table has been built.

Behaviours of the code worth knowing:
- `Identity-H` encode returns no bytes. There is no reverse map, so a rewritten `Tj`
  under such a font becomes an empty string (`IdentityHMatchEmptiesTjString`). It does
  not lose only the unmappable characters.
- `Identity-H` decode looks up single bytes, not two-byte codes.
- The accepted name `UniGB−UTF16−H` is spelled with U+2212 minus signs. The ASCII
  spelling is rejected (`AsciiUniGbUtf16Rejected`).
- The CMap transform panics on a malformed payload. It is not a soft per-font failure.

## Model

| member | source | states |
|---|---|---|
| Utf16.DecodeEncode | src/pdf_replacer/unicode_tools.rs:78 | decoding UTF-16 (the `String::from_utf16` step) recovers every string from its encoding |
| Utf16.EncodeDecode | src/pdf_replacer/unicode_tools.rs:78 | a successful UTF-16 decoding re-encodes to exactly the input units, so the decoder invents nothing |
| Utf16.LoneSurrogateIsIllFormed | src/pdf_replacer/unicode_tools.rs:70-78 | a single surrogate unit fails to decode, which is the case the source skips before its unwrap |
| UnicodeTools.Units | src/pdf_replacer/unicode_tools.rs:63-69 | an even-length payload yields len/2 units, unit i being byte 2i times 256 plus byte 2i+1 |
| UnicodeTools.PairUnits | src/pdf_replacer/unicode_tools.rs:63-69 | the two-bytes-per-step loop yields len/2 units, unit j being the big-endian pairing of bytes 2j and 2j+1 |
| UnicodeTools.TransformUnicodeMap | src/pdf_replacer/unicode_tools.rs:57-83 | aborts iff some payload has odd length or is ill-formed UTF-16 other than a lone surrogate; otherwise it keeps exactly the codes whose units are not a lone surrogate (so its keys are a subset of the input's), each mapped to the UTF-16 decoding of its units |
| UnicodeTools.TransformInventsNothing | src/pdf_replacer/unicode_tools.rs:62-82 | every transformed value encodes back to exactly the units of its own payload |
| UnicodeTools.NewFont | src/pdf_replacer/unicode_tools.rs:93-99 | the font keeps its encoding name; its raw and transformed CMaps are both present (and equal to the given pair) or both absent |
| UnicodeTools.LoadCMaps | src/pdf_replacer/unicode_tools.rs:24-50 | an unexpected ToUnicode kind or a malformed payload aborts; a missing entry or any failed fetch, decompression or parse yields no CMap; otherwise the parsed CMap paired with its transformation by `transform_unicode_map` |
| UnicodeTools.FontTable | src/pdf_replacer/unicode_tools.rs:19-54 | one entry per page font with that font's encoding name; its raw and transformed CMaps are both present exactly when the ToUnicode stream parsed, the raw one being the parsed CMap and the other its `transform_unicode_map` result; aborts iff some font's CMap loading aborts |
| UnicodeTools.ExtractPageCMaps | src/pdf_replacer/unicode_tools.rs:4-55 | fails with the page-not-found error for a page number past the document; otherwise it is the font table of the selected page |
| UnicodeTools.IdentityTextConcat | src/pdf_replacer/unicode_tools.rs:118-127 | `Identity-H` text of concatenated bytes is the concatenation of their texts, so the output is the in-order concatenation of per-byte lookups |
| UnicodeTools.IdentityTextUnmapped | src/pdf_replacer/unicode_tools.rs:120-125 | bytes absent from the CMap contribute nothing |
| UnicodeTools.IdentityDecodeLoop | src/pdf_replacer/unicode_tools.rs:119-126 | the byte-by-byte append loop produces exactly the per-byte lookup concatenation |
| UnicodeTools.MapperDecode | src/pdf_replacer/unicode_tools.rs:112-137 | unknown font gives exactly "?NOFONT?"; `Identity-H` aborts iff the input is non-empty and the font has no CMap, and otherwise gives the per-byte lookup text; other encodings give the library decoding under the font's encoding name |
| UnicodeTools.MapperEncode | src/pdf_replacer/unicode_tools.rs:139-154 | unknown font and `Identity-H` give empty bytes; other encodings give the library encoding under the font's encoding name |
| UnicodeTools.MapperRoundTrip | src/pdf_replacer/unicode_tools.rs:112-154 | encode-then-decode through the mapper is the library round trip for table encodings, the empty text for `Identity-H`, and the sentinel for an unknown font |
| PdfObjects.PageIndex | src/pdf_replacer.rs:14-18 | the page index is the page number minus one, saturating at zero, so pages 0 and 1 both select the first page; an index past the last page fails with page-not-found naming the requested number |
| Substitution.ContainsIffOccurrence | src/pdf_replacer.rs:52 | the containment test holds iff the key occurs at some position of the text |
| Substitution.ReplaceAllWithoutMatch | src/pdf_replacer.rs:53 | `ReplaceAll`, the model of `str::replace` (also at src/main.rs:116): replace-all of a key that does not occur leaves the text unchanged |
| Substitution.ReplaceAllByItself | src/pdf_replacer.rs:53 | replacing a key by itself leaves every text unchanged, the empty key included |
| Substitution.WholeTextReplaced | src/pdf_replacer.rs:52-53 | a text that is exactly the key becomes exactly the value, the empty key included |
| Substitution.ReplaceAllFirstOccurrence | src/pdf_replacer.rs:53 | replace-all scans left to right: with the first occurrence of a non-empty key at i, the result is the text before i, then the value, then replace-all of the text after that occurrence (so occurrences never overlap; also src/main.rs:116) |
| Substitution.DoubledKeyReplaced | src/pdf_replacer.rs:53 | the key written twice becomes the value written twice, and the value alone when the key is empty |
| Substitution.ModifiedIffSomeKeyIn | src/pdf_replacer.rs:51-56 | the rule loop's modified flag is true iff some rule's key occurs in the original decoded text |
| Substitution.UnmodifiedMeansUnchanged | src/pdf_replacer.rs:51-56 | when no rule matched the text is returned untouched |
| Substitution.ApplyRulesConcat | src/pdf_replacer.rs:71-76 | rules apply in list order: running a concatenated list is running the first part, then the second on its output, with the flags or-ed |
| Substitution.ReapplyIsNoOp | src/pdf_replacer.rs:51-56 | re-running the rule list on its own output that contains no key changes nothing and reports no modification |
| PdfReplacer.ValidEncoding | src/pdf_replacer.rs:95-111 | true exactly for the seven accepted encoding names and false for an absent encoding |
| PdfReplacer.AsciiUniGbUtf16Rejected | src/pdf_replacer.rs:104 | the ASCII-hyphen name `UniGB-UTF16-H` is rejected while the U+2212 spelling is accepted |
| PdfReplacer.CollectText | src/pdf_replacer.rs:113-133 | collecting cannot fail when the font decoder cannot fail |
| PdfReplacer.CollectTextConcat | src/pdf_replacer.rs:113-133 | the text of concatenated operand lists is the concatenation of their texts |
| PdfReplacer.AdjacentStringsJoin | src/pdf_replacer.rs:116-120 | two adjacent strings contribute their decoded texts with no separator |
| PdfReplacer.NestedArrayText | src/pdf_replacer.rs:121-124 | a nested array contributes its own collected text followed by one space, and aborts exactly when its content aborts |
| PdfReplacer.TJArrayText | src/pdf_replacer.rs:113-133 | for `[[a n b]]`, the text is the text of `a`, a space only when `n` is below -100, the text of `b`, then the closing space of the nested array |
| PdfReplacer.SpacingWithoutStrings | src/pdf_replacer.rs:121-130 | without strings the text is one space per nested array (at any depth) and per integer below -100, and nothing for any other operand, reals included |
| PdfReplacer.SelectFont | src/pdf_replacer.rs:34-41 | `Tf` without operands aborts; a name operand becomes the current font and any other operand makes it absent; the encoding is the page's entry under the font name, or under the empty name when the font is absent |
| PdfReplacer.RewriteTjOperand | src/pdf_replacer.rs:45-62 | non-strings are kept; a string aborts iff its decoding aborts, keeps its format, stays unchanged when no rule key occurs in its text, and otherwise holds the mapper encoding of the rule loop's output |
| PdfReplacer.RewriteTjOperands | src/pdf_replacer.rs:45-62 | the operand list succeeds iff every operand's rewrite succeeds, keeps its length, and holds each operand's rewrite at its position |
| PdfReplacer.RewriteTj | src/pdf_replacer.rs:42-63 | under a non-accepted encoding the `Tj` is returned as is; otherwise it aborts iff some string operand's decoding aborts; on success the operator and operand count stay and each operand is rewritten at its position |
| PdfReplacer.RewriteTJ | src/pdf_replacer.rs:64-84 | under a non-accepted encoding the `TJ` is returned as is; when no rule key occurs in the collected text it is unchanged; otherwise it becomes `Tj` with one literal string holding the library encoding, under the current encoding, of the rule loop's output |
| PdfReplacer.Walk | src/pdf_replacer.rs:32-89 | a successful walk preserves the number of operations; every operation other than `Tj`/`TJ` is unchanged; an operator changes only from `TJ` to `Tj` |
| PdfReplacer.WalkPointwise | src/pdf_replacer.rs:29-41 | output operation i is input operation i rewritten under the font state left by the `Tf` operations before it |
| PdfReplacer.StateAfterSnoc | src/pdf_replacer.rs:32-41 | the state after one more operation is that operation applied to the state the shorter prefix left; a failure of the prefix carries over |
| PdfReplacer.StateAfterNoTf | src/pdf_replacer.rs:32-41 | with no `Tf` among the first i operations, the state is the starting state |
| PdfReplacer.StateAfterLastTf | src/pdf_replacer.rs:34-41 | the state before operation i is exactly what the last `Tf` before i selected, when the operations before that `Tf` went through |
| PdfReplacer.WalkWithoutMatchIsIdentity | src/pdf_replacer.rs:42-84 | if no rule key occurs in any decoded `Tj` string or collected `TJ` text of the page, the walk returns the operations unchanged |
| PdfReplacer.WalkSkipsUnsupportedFonts | src/pdf_replacer.rs:42-65 | on a page none of whose fonts has an accepted encoding, the walk changes nothing, whatever the text |
| PdfReplacer.WalkFailsOnBareTf | src/pdf_replacer.rs:34-38 | a `Tf` without operands anywhere on the page aborts the walk |
| PdfReplacer.RewriteOperationSucceeds | src/pdf_replacer.rs:42-84 | when every `Identity-H` font of the table has a CMap, rewriting a `Tj`, a `TJ` or any other operation cannot abort |
| PdfReplacer.WalkSucceedsIff | src/pdf_replacer.rs:29-89 | the walk succeeds exactly when every `Tf` has an operand and every operation's rewrite succeeds under the state left by the operations before it |
| PdfReplacer.WalkSucceeds | src/pdf_replacer.rs:29-89 | a sufficient condition for success: every `Tf` has an operand and every `Identity-H` font of the table has a CMap |
| PdfReplacer.IdentityHMatchEmptiesTjString | src/pdf_replacer.rs:58-61 | under an `Identity-H` font a `Tj` string whose text matches a rule is replaced by an empty string of the same format |
| PdfReplacer.PageEncodings | src/pdf_replacer.rs:20-25 | the encodings map has exactly the page's font names, each mapped to that font's encoding name |
| PdfReplacer.ReplaceText | src/pdf_replacer.rs:10-93 | an out-of-range page number fails with page-not-found; on an existing page it succeeds whenever the font table and the walk do; on success only the selected page changes, it keeps its fonts, and its operations are the walk's output over the page's font table and encodings |
| LegacyReplacer.StringTextIsLibraryDecoding | src/main.rs:131-150 | in the older walk a string's text is the library codec's decoding under the current encoding |
| LegacyReplacer.SelectEncoding | src/main.rs:94-100 | `Tf` aborts with the missing-operand error when it has no operands and with the not-a-name error when its first operand is not a name; otherwise the encoding is the page's entry for that name, or absent |
| LegacyReplacer.RewriteTj | src/main.rs:102-111 | a string operand is replaced by the library encoding of the value exactly when its decoded text equals the key, keeping its format; every other operand and the operator stay |
| LegacyReplacer.TJAgreesWithSingleRuleLoop | src/main.rs:112-122 | `RewriteTJ`, the older `TJ` branch: a `TJ` becomes a one-literal `Tj` of the encoded replace-all text iff its collected text contains the key, and is unchanged otherwise: exactly the newer rule loop run with a one-rule list |
| LegacyReplacer.Walk | src/main.rs:92-124 | a successful pass preserves the number of operations; every operation other than `Tj`/`TJ` is unchanged; an operator changes only from `TJ` to `Tj` |
| LegacyReplacer.WalkFailsOnBadTf | src/main.rs:94-99 | a `Tf` with no operand, or a non-name first operand, anywhere on the page aborts the pass |
| LegacyReplacer.WalkSucceedsIff | src/main.rs:92-124 | a pass succeeds exactly when every `Tf` on the page has a name as its first operand |
| LegacyReplacer.WalkPointwise | src/main.rs:92-124 | output operation i of a pass is input operation i rewritten (`Tj` by key equality, `TJ` by replace-all on the collected text) under the encoding left by the `Tf` operations before it |
| LegacyReplacer.EncodingAfterSnoc | src/main.rs:92-101 | the encoding after one more operation is that operation applied to the encoding the shorter prefix left; a failure of the prefix carries over |
| LegacyReplacer.EncodingAfterNoTf | src/main.rs:91-101 | with no `Tf` among the first i operations, the encoding is the starting one (absent at the start of a stream) |
| LegacyReplacer.EncodingAfterLastTf | src/main.rs:94-100 | the encoding before operation i is exactly what the last `Tf` before i selected, when the operations before that `Tf` went through |
| LegacyReplacer.UnknownFontTextIsRewritten | src/main.rs:100-111 | with no encoding guard, after a `Tf` naming a font the page lacks, a `Tj` string whose text decoded with no encoding equals the key is still replaced |
| LegacyReplacer.ReplaceText | src/main.rs:77-129 | an out-of-range page number fails with page-not-found; on an existing page it succeeds whenever the pass does; on success only the selected page changes, it keeps its fonts, and its operations are one pass's output |
| LegacyReplacer.PageNumbers | src/main.rs:58 | the driver visits page numbers 1 to the page count, in order |
| LegacyReplacer.PageNumbersCoverDocument | src/main.rs:58 | those page numbers are distinct and name exactly the document's pages |
| LegacyReplacer.RunRulesIsPagePasses | src/main.rs:59-61 | all rule passes on one page number change exactly that page, to the page after one pass per rule in list order |
| LegacyReplacer.RunPagesIsPagewise | src/main.rs:58-62 | running distinct page numbers succeeds iff each listed page survives its passes; listed pages become their passed versions and the others are kept |
| LegacyReplacer.RunIsPagewise | src/main.rs:58-62 | `Run`, the driver loop over every page and then every rule: the whole run succeeds iff every page survives its passes, and each result page is that page after all passes on its own: no state crosses pages |

## Left out

- Reading the rule list (file or standard input), JSON parsing, loading and saving the document (`src/main.rs` lines 33-75): these are I/O.
- `Content::decode` and `Content::encode`, `get_page_content` and `change_page_content`: a page holds its operations already decoded, and the model never fails at these steps.
- `get_page_fonts`, `get_object`, `as_stream` and `decompressed_content`: a font dictionary carries its encoding name and the outcome of fetching and decompressing its ToUnicode stream.
- The lopdf text codec and the CMap parser: they are opaque functions in `Library`, so nothing is proved about their own round trips.
- Debug `println!` output: it is not observable in the result.
- HashMap and BTreeMap iteration order: keys are unique. All panics are one error, so the order decides nothing the model distinguishes.
- Which panic message aborts a run: every panic becomes the single error `Panicked`.
- Integer widths: `Integer` operands are unbounded, since only their comparison with -100 matters. Page numbers are unbounded too, since the source's `saturating_sub` never wraps. `Real` carries no value because no operation reads it.
- The `Dictionary`, `Stream` and `Reference` operand kinds are one opaque `Other` variant: the engine treats them alike.
- Content streams shared between pages: a `Document` gives each page its own operations, while the source writes each page's result back through `change_page_content` into one shared document. A stream referenced by two pages would be rewritten by each page's passes. `LegacyReplacer.RunIsPagewise` ("no state crosses pages") holds only under this per-page ownership.
- `UnicodeMapper::new` wraps the font table and has no logic: the mapper datatype is that wrapper.
- `src/cli.rs` is declarations only. A rule is the datatype `Substitution.Rule`.
- The newer `replace_text` in `src/pdf_replacer.rs` is not called from `src/main.rs`. It is modelled for one page, with no driver around it.

=== FILE: legacy_replacer.dfy ===
/**
  The older single-rule walk. Each pass rewrites one page with one (key, value) rule and
  differs from the newer walk in four ways: a `Tj` string is replaced only when its whole
  decoded text equals the key; text under any encoding is rewritten (there is no encoding
  guard, and a font missing from the page has no encoding); a `Tf` whose first operand is
  not a name aborts; and rules are applied as separate passes, page by page, then rule by
  rule in list order. Decoding and encoding go straight to the library codec.
*/
module LegacyReplacer {
  import opened Wrappers
  import opened PdfObjects
  import opened Substitution
  import PdfReplacer

  /** The library codec under `encoding`, as a decoder that never fails. */
  function LibraryDecoder(encoding: Option<string>, lib: Library): seq<byte> -> Outcome<string>
  {
    b => Success(lib.decodeText(encoding, b))
  }

  /** Text of a `TJ` operand list, with the same spacing rules as the newer walk. */
  function CollectText(encoding: Option<string>, operands: seq<Operand>, lib: Library): string
  {
    PdfReplacer.CollectText(LibraryDecoder(encoding, lib), operands).value
  }

  /** A string's text in the older walk is the library codec's decoding under the current encoding. */
  lemma StringTextIsLibraryDecoding(encoding: Option<string>, bytes: seq<byte>, format: StringFormat, lib: Library)
    ensures CollectText(encoding, [Str(bytes, format)], lib) == lib.decodeText(encoding, bytes)
  {
    var ops := [Str(bytes, format)];
    var decode := LibraryDecoder(encoding, lib);
    assert ops[1..] == [];
    assert PdfReplacer.CollectText(decode, ops[1..]) == Success([]);
    assert PdfReplacer.OperandText(decode, ops[0]) == Success(lib.decodeText(encoding, bytes));
    assert lib.decodeText(encoding, bytes) + [] == lib.decodeText(encoding, bytes);
  }

  /**
    `Tf`: the first operand must exist and be a name; the encoding is the page's
    encoding for that font name, or absent when the page has no such font.
  */
  function SelectEncoding(op: Operation, encodings: map<FontName, string>): (r: Outcome<Option<string>>)
    ensures r.Failure? <==> op.operands == [] || !op.operands[0].Name?
    ensures r.Failure? ==> r.error == if op.operands == [] then MissingFontOperand else FontOperandNotName
    ensures r.Success? ==> (r.value.Some? <==> op.operands[0].name in encodings)
    ensures r.Success? && r.value.Some? ==> r.value.value == encodings[op.operands[0].name]
  {
    if op.operands == [] then Failure(MissingFontOperand)
    else if !op.operands[0].Name? then Failure(FontOperandNotName)
    else
      var font := op.operands[0].name;
      Success(if font in encodings then Some(encodings[font]) else None)
  }

  /** A string operand whose decoded text is exactly `key` is replaced by the encoding of `value`. */
  function RewriteTjOperand(encoding: Option<string>, operand: Operand, key: string, value: string, lib: Library): Operand
  {
    match operand
    case Str(bytes, format) =>
      if lib.decodeText(encoding, bytes) == key then Str(lib.encodeText(encoding, value), format) else operand
    case _ => operand
  }

  /**
    `Tj`: each string operand is replaced exactly when its decoded text equals the key
    (a text that merely contains the key is kept); every other operand is kept.
  */
  function RewriteTj(encoding: Option<string>, op: Operation, key: string, value: string, lib: Library): (r: Operation)
    ensures r.operator == op.operator && |r.operands| == |op.operands|
    ensures forall i :: 0 <= i < |op.operands| && op.operands[i].Str? && lib.decodeText(encoding, op.operands[i].bytes) == key ==>
      r.operands[i] == Str(lib.encodeText(encoding, value), op.operands[i].format)
    ensures forall i :: 0 <= i < |op.operands| && !(op.operands[i].Str? && lib.decodeText(encoding, op.operands[i].bytes) == key) ==>
      r.operands[i] == op.operands[i]
  {
    Operation(op.operator, seq(|op.operands|, i requires 0 <= i < |op.operands| => RewriteTjOperand(encoding, op.operands[i], key, value, lib)))
  }

  /**
    `TJ`: if the collected text contains the key, the operation becomes a `Tj` with one
    literal string holding the encoding of the text with every occurrence replaced;
    otherwise it is kept.
  */
  function RewriteTJ(encoding: Option<string>, op: Operation, key: string, value: string, lib: Library): Operation
  {
    var text := CollectText(encoding, op.operands, lib);
    if Contains(text, key) then Operation("Tj", [Str(lib.encodeText(encoding, ReplaceAll(text, key, value)), Literal)])
    else op
  }

  /**
    On a `TJ` the older pass decides exactly as the newer walk's rule loop does with the
    one-rule list `[Rule(key, value)]`: it rewrites iff that loop reports a modification,
    and it writes that loop's text.
  */
  lemma TJAgreesWithSingleRuleLoop(encoding: Option<string>, op: Operation, key: string, value: string, lib: Library)
    ensures var sub := ApplyRules(CollectText(encoding, op.operands, lib), [Rule(key, value)]);
      && (sub.modified ==> RewriteTJ(encoding, op, key, value, lib) == Operation("Tj", [Str(lib.encodeText(encoding, sub.text), Literal)]))
      && (!sub.modified ==> RewriteTJ(encoding, op, key, value, lib) == op)
  {
    var text := CollectText(encoding, op.operands, lib);
    var acc := Substituted(text, false);
    var rules := [Rule(key, value)];
    assert rules[1..] == [];
    assert ApplyRulesFrom(acc, rules) == ApplyRulesFrom(ApplyRule(acc, rules[0]), rules[1..]);
  }

  /** The encoding after an operation: only `Tf` changes it. */
  function NextEncoding(encoding: Option<string>, op: Operation, encodings: map<FontName, string>): Outcome<Option<string>>
  {
    if op.operator == "Tf" then SelectEncoding(op, encodings) else Success(encoding)
  }

  /** The operation as one pass leaves it, given the current encoding. */
  function RewriteOperation(encoding: Option<string>, op: Operation, key: string, value: string, lib: Library): Operation
  {
    if op.operator == "Tj" then RewriteTj(encoding, op, key, value, lib)
    else if op.operator == "TJ" then RewriteTJ(encoding, op, key, value, lib)
    else op
  }

  /** One pass of the older walk over a page's operations, with one rule. */
  function Walk(encoding: Option<string>, ops: seq<Operation>, encodings: map<FontName, string>,
                key: string, value: string, lib: Library): (r: Outcome<seq<Operation>>)
    ensures r.Success? ==> |r.value| == |ops|
    ensures r.Success? ==> forall i :: 0 <= i < |ops| && ops[i].operator != "Tj" && ops[i].operator != "TJ" ==>
      r.value[i] == ops[i]
    ensures r.Success? ==> forall i :: 0 <= i < |ops| ==>
      r.value[i].operator == ops[i].operator || (ops[i].operator == "TJ" && r.value[i].operator == "Tj")
    decreases |ops|
  {
    if ops == [] then Success([])
    else
      var next :- NextEncoding(encoding, ops[0], encodings);
      var tail :- Walk(next, ops[1..], encodings, key, value, lib);
      Success([RewriteOperation(encoding, ops[0], key, value, lib)] + tail)
  }

  /** A `Tf` without operands, or with a first operand that is not a name, aborts the pass. */
  lemma {:induction false} WalkFailsOnBadTf(encoding: Option<string>, ops: seq<Operation>, encodings: map<FontName, string>,
                                            key: string, value: string, lib: Library, i: nat)
    requires i < |ops| && ops[i].operator == "Tf" && (ops[i].operands == [] || !ops[i].operands[0].Name?)
    ensures Walk(encoding, ops, encodings, key, value, lib).Failure?
    decreases i
  {
    if i > 0 && NextEncoding(encoding, ops[0], encodings).Success? {
      WalkFailsOnBadTf(NextEncoding(encoding, ops[0], encodings).value, ops[1..], encodings, key, value, lib, i - 1);
    }
  }

  /** Every `Tf` among the operations has a first operand, and it is a name. */
  predicate TfsNameFonts(ops: seq<Operation>)
  {
    forall i :: 0 <= i < |ops| && ops[i].operator == "Tf" ==> ops[i].operands != [] && ops[i].operands[0].Name?
  }

  /** A pass fails exactly when some `Tf` lacks a font name: rewriting itself cannot fail. */
  lemma {:induction false} WalkSucceedsIff(encoding: Option<string>, ops: seq<Operation>, encodings: map<FontName, string>,
                                           key: string, value: string, lib: Library)
    ensures Walk(encoding, ops, encodings, key, value, lib).Success? <==> TfsNameFonts(ops)
    decreases |ops|
  {
    if !TfsNameFonts(ops) {
      var i :| 0 <= i < |ops| && ops[i].operator == "Tf" && !(ops[i].operands != [] && ops[i].operands[0].Name?);
      WalkFailsOnBadTf(encoding, ops, encodings, key, value, lib, i);
    } else if ops != [] {
      assert ops[0].operator == "Tf" ==> ops[0].operands != [] && ops[0].operands[0].Name?;
      assert NextEncoding(encoding, ops[0], encodings).Success?;
      assert TfsNameFonts(ops[1..]) by {
        forall i | 0 <= i < |ops[1..]| && ops[1..][i].operator == "Tf"
          ensures ops[1..][i].operands != [] && ops[1..][i].operands[0].Name?
        {
          assert ops[1..][i] == ops[i + 1];
        }
      }
      WalkSucceedsIff(NextEncoding(encoding, ops[0], encodings).value, ops[1..], encodings, key, value, lib);
    }
  }

  /** The encoding after the operations `ops`, starting from `encoding`: the fold of `NextEncoding`. */
  function EncodingAfter(encoding: Option<string>, ops: seq<Operation>, encodings: map<FontName, string>): Outcome<Option<string>>
    decreases |ops|
  {
    if ops == [] then Success(encoding)
    else
      var next :- NextEncoding(encoding, ops[0], encodings);
      EncodingAfter(next, ops[1..], encodings)
  }

  /** A successful pass is the first operation rewritten, followed by the pass over the rest. */
  lemma WalkStep(encoding: Option<string>, ops: seq<Operation>, encodings: map<FontName, string>,
                 key: string, value: string, lib: Library)
    requires Walk(encoding, ops, encodings, key, value, lib).Success? && ops != []
    ensures NextEncoding(encoding, ops[0], encodings).Success?
    ensures Walk(NextEncoding(encoding, ops[0], encodings).value, ops[1..], encodings, key, value, lib).Success?
    ensures Walk(encoding, ops, encodings, key, value, lib).value
         == [RewriteOperation(encoding, ops[0], key, value, lib)]
            + Walk(NextEncoding(encoding, ops[0], encodings).value, ops[1..], encodings, key, value, lib).value
  {
  }

  /** The encoding after a non-empty prefix is the one the rest of that prefix leaves after the first step. */
  lemma EncodingAfterStep(encoding: Option<string>, ops: seq<Operation>, encodings: map<FontName, string>, i: nat)
    requires 0 < i <= |ops| && NextEncoding(encoding, ops[0], encodings).Success?
    ensures EncodingAfter(encoding, ops[..i], encodings)
         == EncodingAfter(NextEncoding(encoding, ops[0], encodings).value, ops[1..][..i - 1], encodings)
  {
    assert ops[..i][0] == ops[0];
    assert ops[..i][1..] == ops[1..][..i - 1];
  }

  /** Extending a prefix by one operation applies `NextEncoding` to the encoding the prefix leaves, unless that prefix already failed. */
  lemma {:induction false} EncodingAfterSnoc(encoding: Option<string>, ops: seq<Operation>, encodings: map<FontName, string>, i: nat)
    requires i < |ops|
    ensures EncodingAfter(encoding, ops[..i + 1], encodings)
         == if EncodingAfter(encoding, ops[..i], encodings).Success?
            then NextEncoding(EncodingAfter(encoding, ops[..i], encodings).value, ops[i], encodings)
            else EncodingAfter(encoding, ops[..i], encodings)
    decreases i
  {
    if i == 0 {
      assert ops[..1][1..] == [];
      assert ops[..0] == [];
    } else if NextEncoding(encoding, ops[0], encodings).Success? {
      var next := NextEncoding(encoding, ops[0], encodings).value;
      EncodingAfterStep(encoding, ops, encodings, i);
      EncodingAfterStep(encoding, ops, encodings, i + 1);
      EncodingAfterSnoc(next, ops[1..], encodings, i - 1);
      assert ops[1..][i - 1] == ops[i];
    } else {
      assert ops[..i][0] == ops[0];
      assert ops[..i + 1][0] == ops[0];
    }
  }

  /** With no `Tf` among the first `i` operations, the encoding is still the one the pass started with. */
  lemma {:induction false} EncodingAfterNoTf(encoding: Option<string>, ops: seq<Operation>, encodings: map<FontName, string>, i: nat)
    requires i <= |ops|
    requires forall k :: 0 <= k < i ==> ops[k].operator != "Tf"
    ensures EncodingAfter(encoding, ops[..i], encodings) == Success(encoding)
    decreases i
  {
    if i == 0 {
      assert ops[..0] == [];
    } else {
      EncodingAfterNoTf(encoding, ops, encodings, i - 1);
      EncodingAfterSnoc(encoding, ops, encodings, i - 1);
    }
  }

  /**
    The encoding before operation `i` is the one the last `Tf` before it selected: once the
    operations before that `Tf` went through, what follows it up to `i` changes nothing.
  */
  lemma {:induction false} EncodingAfterLastTf(encoding: Option<string>, ops: seq<Operation>, encodings: map<FontName, string>,
                                               j: nat, i: nat)
    requires j < i <= |ops|
    requires ops[j].operator == "Tf"
    requires forall k :: j < k < i ==> ops[k].operator != "Tf"
    requires EncodingAfter(encoding, ops[..j], encodings).Success?
    ensures EncodingAfter(encoding, ops[..i], encodings) == SelectEncoding(ops[j], encodings)
    decreases i
  {
    EncodingAfterSnoc(encoding, ops, encodings, i - 1);
    if i > j + 1 {
      EncodingAfterLastTf(encoding, ops, encodings, j, i - 1);
    }
  }

  /**
    The pass is pointwise: operation `i` of the result is operation `i` of the input
    rewritten under the encoding the `Tf` operations before it leave behind.
  */
  lemma {:induction false} WalkPointwise(encoding: Option<string>, ops: seq<Operation>, encodings: map<FontName, string>,
                                         key: string, value: string, lib: Library, i: nat)
    requires Walk(encoding, ops, encodings, key, value, lib).Success?
    requires i < |ops|
    ensures EncodingAfter(encoding, ops[..i], encodings).Success?
    ensures Walk(encoding, ops, encodings, key, value, lib).value[i]
         == RewriteOperation(EncodingAfter(encoding, ops[..i], encodings).value, ops[i], key, value, lib)
    decreases i
  {
    WalkStep(encoding, ops, encodings, key, value, lib);
    if i == 0 {
      assert ops[..0] == [];
    } else {
      var next := NextEncoding(encoding, ops[0], encodings).value;
      WalkPointwise(next, ops[1..], encodings, key, value, lib, i - 1);
      EncodingAfterStep(encoding, ops, encodings, i);
      assert ops[1..][i - 1] == ops[i];
    }
  }

  /**
    There is no encoding guard: after a `Tf` naming a font the page does not have, a `Tj`
    string whose text (decoded with no encoding) equals the key is still replaced.
  */
  lemma UnknownFontTextIsRewritten(font: FontName, size: Operand, bytes: seq<byte>, format: StringFormat,
                                   encodings: map<FontName, string>, key: string, value: string, lib: Library)
    requires font !in encodings
    requires lib.decodeText(None, bytes) == key
    ensures
      var ops := [Operation("Tf", [Name(font), size]), Operation("Tj", [Str(bytes, format)])];
      Walk(None, ops, encodings, key, value, lib)
        == Success([ops[0], Operation("Tj", [Str(lib.encodeText(None, value), format)])])
  {
    var ops := [Operation("Tf", [Name(font), size]), Operation("Tj", [Str(bytes, format)])];
    assert SelectEncoding(ops[0], encodings) == Success(None);
    assert ops[1..][1..] == [];
    var tj := RewriteTj(None, ops[1], key, value, lib);
    assert tj.operands[0] == Str(lib.encodeText(None, value), format);
    assert tj == Operation("Tj", [Str(lib.encodeText(None, value), format)]);
    var rest := ops[1..];
    assert rest[0] == ops[1] && rest[1..] == [];
    assert RewriteOperation(None, rest[0], key, value, lib) == tj;
    assert NextEncoding(None, rest[0], encodings) == Success(None);
    assert Walk(None, rest[1..], encodings, key, value, lib) == Success([]);
    assert rest != [] && rest[0].operator != "Tf";
    assert [tj] + [] == [tj];
    assert Walk(None, rest, encodings, key, value, lib) == Success([tj]);
    assert RewriteOperation(None, ops[0], key, value, lib) == ops[0];
    assert NextEncoding(None, ops[0], encodings) == Success(None);
    assert [ops[0]] + [tj] == [ops[0], tj];
  }

  /** One pass over the page a page number selects; only that page's operations change. */
  function ReplaceText(doc: Document, pageNumber: nat, key: string, value: string, lib: Library): (r: Outcome<Document>)
    ensures PageIndex(doc, pageNumber).Failure? ==> r == Failure(PageNumberNotFound(pageNumber))
    ensures r.Success? ==> PageIndex(doc, pageNumber).Success?
    ensures r.Success? ==> |r.value| == |doc|
    ensures r.Success? ==> forall j :: 0 <= j < |doc| && j != PageIndex(doc, pageNumber).value ==> r.value[j] == doc[j]
    ensures r.Success? ==>
      var index := PageIndex(doc, pageNumber).value;
      && r.value[index].fonts == doc[index].fonts
      && Walk(None, doc[index].operations, PdfReplacer.PageEncodings(doc[index]), key, value, lib)
         == Success(r.value[index].operations)
    ensures PageIndex(doc, pageNumber).Success? ==>
      var index := PageIndex(doc, pageNumber).value;
      Walk(None, doc[index].operations, PdfReplacer.PageEncodings(doc[index]), key, value, lib).Success? ==> r.Success?
  {
    var index :- PageIndex(doc, pageNumber);
    var page := doc[index];
    var operations :- Walk(None, page.operations, PdfReplacer.PageEncodings(page), key, value, lib);
    Success(doc[index := Page(page.fonts, operations)])
  }

  /** One page after a pass per rule, in list order. */
  function PagePasses(page: Page, rules: seq<Rule>, lib: Library): Outcome<Page>
    decreases |rules|
  {
    if rules == [] then Success(page)
    else
      var operations :- Walk(None, page.operations, PdfReplacer.PageEncodings(page), rules[0].key, rules[0].value, lib);
      PagePasses(Page(page.fonts, operations), rules[1..], lib)
  }

  /** The inner loop of the driver: every rule, in list order, on one page number. */
  function RunRules(doc: Document, pageNumber: nat, rules: seq<Rule>, lib: Library): Outcome<Document>
    decreases |rules|
  {
    if rules == [] then Success(doc)
    else
      var next :- ReplaceText(doc, pageNumber, rules[0].key, rules[0].value, lib);
      RunRules(next, pageNumber, rules[1..], lib)
  }

  /** The outer loop of the driver: every listed page number, in order. */
  function RunPages(doc: Document, pageNumbers: seq<nat>, rules: seq<Rule>, lib: Library): Outcome<Document>
    decreases |pageNumbers|
  {
    if pageNumbers == [] then Success(doc)
    else
      var next :- RunRules(doc, pageNumbers[0], rules, lib);
      RunPages(next, pageNumbers[1..], rules, lib)
  }

  /** The page numbers of a document, 1 to its page count, in order. */
  function PageNumbers(doc: Document): (r: seq<nat>)
    ensures |r| == |doc|
    ensures forall i :: 0 <= i < |r| ==> r[i] == i + 1
  {
    seq(|doc|, i => i + 1)
  }

  /** The whole run: for each page in order, for each rule in order, one pass. */
  function Run(doc: Document, rules: seq<Rule>, lib: Library): Outcome<Document>
  {
    RunPages(doc, PageNumbers(doc), rules, lib)
  }

  /** All passes over one existing page change exactly that page, as `PagePasses` describes. */
  lemma {:induction false} RunRulesIsPagePasses(doc: Document, pageNumber: nat, rules: seq<Rule>, lib: Library)
    requires 1 <= pageNumber <= |doc|
    ensures RunRules(doc, pageNumber, rules, lib).Success? <==> PagePasses(doc[pageNumber - 1], rules, lib).Success?
    ensures RunRules(doc, pageNumber, rules, lib).Success? ==>
      RunRules(doc, pageNumber, rules, lib).value == doc[pageNumber - 1 := PagePasses(doc[pageNumber - 1], rules, lib).value]
    decreases |rules|
  {
    var index := pageNumber - 1;
    if rules == [] {
      assert doc[index := doc[index]] == doc;
    } else {
      var page := doc[index];
      var pass := Walk(None, page.operations, PdfReplacer.PageEncodings(page), rules[0].key, rules[0].value, lib);
      if pass.Success? {
        var next := ReplaceText(doc, pageNumber, rules[0].key, rules[0].value, lib).value;
        assert next == doc[index := Page(page.fonts, pass.value)];
        RunRulesIsPagePasses(next, pageNumber, rules[1..], lib);
        assert next[index] == Page(page.fonts, pass.value);
        if RunRules(next, pageNumber, rules[1..], lib).Success? {
          var done := PagePasses(next[index], rules[1..], lib).value;
          assert next[index := done] == doc[index := done];
        }
      }
    }
  }

  /** Page numbers with no repeats, each naming a page of a document with `count` pages. */
  predicate DistinctPageNumbers(pageNumbers: seq<nat>, count: nat)
  {
    && (forall i :: 0 <= i < |pageNumbers| ==> 1 <= pageNumbers[i] <= count)
    && (forall i, j :: 0 <= i < j < |pageNumbers| ==> pageNumbers[i] != pageNumbers[j])
  }

  /** Dropping the first of distinct page numbers keeps them distinct, and the first is not repeated. */
  lemma DistinctTail(pageNumbers: seq<nat>, count: nat)
    requires DistinctPageNumbers(pageNumbers, count) && pageNumbers != []
    ensures DistinctPageNumbers(pageNumbers[1..], count)
    ensures pageNumbers[0] !in pageNumbers[1..]
    ensures forall q :: q in pageNumbers <==> q == pageNumbers[0] || q in pageNumbers[1..]
  {
    var rest := pageNumbers[1..];
    assert pageNumbers == [pageNumbers[0]] + rest;
    forall k | 0 <= k < |rest|
      ensures rest[k] != pageNumbers[0]
    {
      assert rest[k] == pageNumbers[k + 1];
    }
  }

  /** A page after its passes, or the page itself when a pass fails. */
  function PassedPage(page: Page, rules: seq<Rule>, lib: Library): Page
  {
    match PagePasses(page, rules, lib)
    case Success(passed) => passed
    case Failure(_) => page
  }

  /** Whether each listed page of `out` is its passed version in `doc` and every other page is kept. */
  predicate Pagewise(doc: Document, pageNumbers: seq<nat>, rules: seq<Rule>, lib: Library, out: Document)
  {
    && |out| == |doc|
    && forall j :: 0 <= j < |doc| ==> out[j] == if j + 1 in pageNumbers then PassedPage(doc[j], rules, lib) else doc[j]
  }

  /** One page passed first, then the rest passed pagewise, is all of them passed pagewise. */
  lemma PagewiseStep(doc: Document, p: nat, rest: seq<nat>, rules: seq<Rule>, lib: Library, out: Document)
    requires 1 <= p <= |doc| && p !in rest
    requires Pagewise(doc[p - 1 := PassedPage(doc[p - 1], rules, lib)], rest, rules, lib, out)
    ensures Pagewise(doc, [p] + rest, rules, lib, out)
  {
    var next := doc[p - 1 := PassedPage(doc[p - 1], rules, lib)];
    forall j | 0 <= j < |doc|
      ensures out[j] == if j + 1 in [p] + rest then PassedPage(doc[j], rules, lib) else doc[j]
    {
      if j + 1 != p {
        assert next[j] == doc[j];
      }
    }
  }

  /** The first listed page, passed on its own, and then the rest of the list. */
  lemma RunPagesStep(doc: Document, p: nat, rest: seq<nat>, rules: seq<Rule>, lib: Library)
    requires 1 <= p <= |doc|
    ensures RunPages(doc, [p] + rest, rules, lib).Success? <==>
      PagePasses(doc[p - 1], rules, lib).Success? && RunPages(doc[p - 1 := PassedPage(doc[p - 1], rules, lib)], rest, rules, lib).Success?
    ensures RunPages(doc, [p] + rest, rules, lib).Success? ==>
      RunPages(doc, [p] + rest, rules, lib) == RunPages(doc[p - 1 := PassedPage(doc[p - 1], rules, lib)], rest, rules, lib)
  {
    assert ([p] + rest)[0] == p && ([p] + rest)[1..] == rest;
    RunRulesIsPagePasses(doc, p, rules, lib);
  }

  /** Whether every listed page survives its passes. */
  predicate AllPass(doc: Document, pageNumbers: seq<nat>, rules: seq<Rule>, lib: Library)
  {
    forall q :: q in pageNumbers ==> 1 <= q <= |doc| && PagePasses(doc[q - 1], rules, lib).Success?
  }

  /** Passing the first listed page first does not change which of the other pages survive. */
  lemma AllPassStep(doc: Document, p: nat, rest: seq<nat>, rules: seq<Rule>, lib: Library)
    requires 1 <= p <= |doc| && p !in rest
    ensures AllPass(doc, [p] + rest, rules, lib) <==>
      PagePasses(doc[p - 1], rules, lib).Success? && AllPass(doc[p - 1 := PassedPage(doc[p - 1], rules, lib)], rest, rules, lib)
  {
    var next := doc[p - 1 := PassedPage(doc[p - 1], rules, lib)];
    assert forall q :: q in [p] + rest <==> q == p || q in rest;
    assert forall q :: q in rest && 1 <= q <= |doc| ==> next[q - 1] == doc[q - 1];
  }

  lemma {:induction false} RunPagesIsPagewise(doc: Document, pageNumbers: seq<nat>, rules: seq<Rule>, lib: Library)
    requires DistinctPageNumbers(pageNumbers, |doc|)
    ensures RunPages(doc, pageNumbers, rules, lib).Success? <==> AllPass(doc, pageNumbers, rules, lib)
    ensures RunPages(doc, pageNumbers, rules, lib).Success? ==>
      Pagewise(doc, pageNumbers, rules, lib, RunPages(doc, pageNumbers, rules, lib).value)
    decreases |pageNumbers|
  {
    if pageNumbers != [] {
      var p := pageNumbers[0];
      var rest := pageNumbers[1..];
      DistinctTail(pageNumbers, |doc|);
      assert pageNumbers == [p] + rest;
      RunPagesStep(doc, p, rest, rules, lib);
      AllPassStep(doc, p, rest, rules, lib);
      if PagePasses(doc[p - 1], rules, lib).Success? {
        var next := doc[p - 1 := PassedPage(doc[p - 1], rules, lib)];
        RunPagesIsPagewise(next, rest, rules, lib);
        if RunPages(next, rest, rules, lib).Success? {
          PagewiseStep(doc, p, rest, rules, lib, RunPages(next, rest, rules, lib).value);
        }
      }
    }
  }

  /** The driver's page numbers are distinct, and they name exactly the document's pages. */
  lemma PageNumbersCoverDocument(doc: Document)
    ensures DistinctPageNumbers(PageNumbers(doc), |doc|)
    ensures forall p :: p in PageNumbers(doc) <==> 1 <= p <= |doc|
  {
    var ps := PageNumbers(doc);
    forall p | 1 <= p <= |doc|
      ensures p in ps
    {
      assert ps[p - 1] == p;
    }
  }

  /**
    Pages are independent: the run succeeds iff every page survives its passes, and
    each page of the result is that page after all passes on its own.
  */
  lemma RunIsPagewise(doc: Document, rules: seq<Rule>, lib: Library)
    ensures Run(doc, rules, lib).Success? <==> forall i :: 0 <= i < |doc| ==> PagePasses(doc[i], rules, lib).Success?
    ensures Run(doc, rules, lib).Success? ==>
      && |Run(doc, rules, lib).value| == |doc|
      && forall i :: 0 <= i < |doc| ==> Run(doc, rules, lib).value[i] == PagePasses(doc[i], rules, lib).value
  {
    var ps := PageNumbers(doc);
    PageNumbersCoverDocument(doc);
    RunPagesIsPagewise(doc, ps, rules, lib);
    if Run(doc, rules, lib).Success? {
      forall i | 0 <= i < |doc|
        ensures Run(doc, rules, lib).value[i] == PagePasses(doc[i], rules, lib).value
      {
        assert i + 1 in ps;
      }
      assert forall i :: 0 <= i < |doc| ==> PagePasses(doc[i], rules, lib).Success? by {
        forall i | 0 <= i < |doc|
          ensures PagePasses(doc[i], rules, lib).Success?
        {
          assert i + 1 in ps;
        }
      }
    }
  }
}

=== FILE: pdf_objects.dfy ===
/**
  The slice of the PDF object model that the text-substitution engine touches:
  bytes, content-stream operands and operations, pages, and the run-aborting errors.
  Operand kinds follow the variants of a PDF object (ISO 32000-1 section 7.3);
  operations are the operator/operand pairs of a content stream (section 7.8.2).
*/
module PdfObjects {
  import opened Wrappers

  /** An unsigned 8-bit value. */
  type byte = x: int | 0 <= x < 0x100

  /** A font resource name as it appears in a page's font dictionary (raw bytes). */
  type FontName = seq<byte>

  /** How a string object was written in the content stream. */
  datatype StringFormat = Literal | Hexadecimal

  /**
    One operand of a content-stream operation. `Integer` is a 64-bit integer in the
    source; only its comparison with -100 is ever observed, so it is modelled unbounded.
    `Real` carries no value because nothing in the engine inspects it, and
    `Dictionary`, `Stream` and `Reference` are collapsed into `Other`.
  */
  datatype Operand =
    | Null
    | Boolean(b: bool)
    | Integer(i: int)
    | Real
    | Name(name: seq<byte>)
    | Str(bytes: seq<byte>, format: StringFormat)
    | Array(items: seq<Operand>)
    | Other

  /** One content-stream operation: an operator tag and its operands. */
  datatype Operation = Operation(operator: string, operands: seq<Operand>)

  /** Conditions that abort the whole run. */
  datatype Error =
    | PageNumberNotFound(pageNumber: nat)  // the page index has no backing page
    | MissingFontOperand                   // a `Tf` with no operands
    | FontOperandNotName                   // a `Tf` whose first operand is not a name (older walk only)
    | Panicked                             // a Rust panic: failed `assert!`, `unwrap` or `panic!`

  /** A computation of the engine that may abort the run. */
  type Outcome<T> = Result<T, Error>

  /** A parsed ToUnicode CMap: character code to UTF-16BE bytes (ISO 32000-1 section 9.10.3). */
  type RawCMap = map<nat, seq<byte>>

  /** A font's ToUnicode stream object; `decompressed` is `None` when decompression fails. */
  datatype StreamObject = StreamObject(decompressed: Option<seq<byte>>)

  /**
    The `ToUnicode` entry of a font dictionary: absent, a stream, an indirect reference
    (whose target is `None` when it cannot be fetched or is not a stream), or an object of
    any other kind.
  */
  datatype ToUnicodeEntry =
    | Absent
    | Direct(stream: StreamObject)
    | Indirect(target: Option<StreamObject>)
    | OtherKind

  /**
    What the engine reads from a font dictionary: its encoding name (as the library reports
    it, `get_font_encoding`) and its ToUnicode entry.
  */
  datatype FontDict = FontDict(encoding: string, toUnicode: ToUnicodeEntry)

  /** A page: its font resources by name and its content stream, already decoded into operations. */
  datatype Page = Page(fonts: map<FontName, FontDict>, operations: seq<Operation>)

  /** The pages of a document in page-tree order; page number `n` (1-based) is `doc[n - 1]`. */
  type Document = seq<Page>

  /**
    The collaborator library's operations, injected as total functions: the per-encoding
    text codec of the document model (`Document::decode_text`, `Document::encode_text`)
    and the CMap parser (`adobe_cmap_parser::get_unicode_map`).
  */
  datatype Library = Library(
    decodeText: (Option<string>, seq<byte>) -> string,
    encodeText: (Option<string>, string) -> seq<byte>,
    parseCMap: seq<byte> -> Option<RawCMap>)

  /**
    Index of the page a page number selects: the number is decreased with saturation at
    zero, so page numbers 0 and 1 both select the first page; an index past the last page
    is an error naming the requested number.
  */
  function PageIndex(doc: Document, pageNumber: nat): (r: Outcome<nat>)
    ensures r.Success? <==> pageNumber <= |doc| && |doc| > 0
    ensures r.Success? ==> r.value < |doc| && r.value == if pageNumber == 0 then 0 else pageNumber - 1
    ensures r.Failure? ==> r.error == PageNumberNotFound(pageNumber)
  {
    var index := if pageNumber == 0 then 0 else pageNumber - 1;
    if index < |doc| then Success(index) else Failure(PageNumberNotFound(pageNumber))
  }
}

=== FILE: pdf_replacer.dfy ===
/**
  The newer text-substitution walk: a left-to-right pass over a page's content-stream
  operations that tracks the current font, decodes the operands of the text-showing
  operators `Tj` and `TJ` (ISO 32000-1 section 9.4.3) through the page's Unicode mapper,
  runs the ordered rule list over the text, and writes changed text back.
*/
module PdfReplacer {
  import opened Wrappers
  import opened PdfObjects
  import opened Substitution
  import opened UnicodeTools

  /**
    The `UniGB-UTF16-H` spelling the source accepts: its two dashes are U+2212 MINUS SIGN,
    not ASCII hyphens.
  */
  const UniGbUtf16MinusSpelling: string := "UniGB\U{2212}UTF16\U{2212}H"

  /** Encoding names under which text is rewritten. */
  const RewritableEncodings: set<string> :=
    {"StandardEncoding", "MacRomanEncoding", "MacExpertEncoding", "WinAnsiEncoding",
     "UniGB-UCS2-H", UniGbUtf16MinusSpelling, IdentityH}

  /** Whether text under this encoding is rewritten; an absent encoding never is. */
  function ValidEncoding(encoding: Option<string>): (r: bool)
    ensures r <==> encoding.Some? && encoding.value in RewritableEncodings
  {
    match encoding
    case None => false
    case Some(e) =>
      || e == "StandardEncoding"
      || e == "MacRomanEncoding"
      || e == "MacExpertEncoding"
      || e == "WinAnsiEncoding"
      || e == "UniGB-UCS2-H"
      || e == UniGbUtf16MinusSpelling
      || e == IdentityH
  }

  /** The ASCII-hyphen spelling `UniGB-UTF16-H` is not among the accepted names. */
  lemma AsciiUniGbUtf16Rejected()
    ensures !ValidEncoding(Some("UniGB-UTF16-H"))
    ensures ValidEncoding(Some(UniGbUtf16MinusSpelling))
  {
    assert "UniGB-UTF16-H"[5] != UniGbUtf16MinusSpelling[5];
  }

  /**
    Text of a `TJ` operand list: decoded strings in order; a nested array contributes its
    own text followed by one space; an integer below -100 contributes one space; every
    other operand (a real number included) contributes nothing. `decode` is the codec of
    the current font; the first failing decode aborts.
  */
  function CollectText(decode: seq<byte> -> Outcome<string>, operands: seq<Operand>): (r: Outcome<string>)
    ensures (forall b :: decode(b).Success?) ==> r.Success?
    decreases operands
  {
    if operands == [] then Success([])
    else
      var head :- OperandText(decode, operands[0]);
      var tail :- CollectText(decode, operands[1..]);
      Success(head + tail)
  }

  /** Contribution of one operand to `CollectText`. */
  function OperandText(decode: seq<byte> -> Outcome<string>, operand: Operand): (r: Outcome<string>)
    ensures (forall b :: decode(b).Success?) ==> r.Success?
    decreases operand
  {
    match operand
    case Str(bytes, _) => decode(bytes)
    case Array(items) =>
      var inner :- CollectText(decode, items);
      Success(inner + " ")
    case Integer(i) => Success(if i < -100 then " " else [])
    case _ => Success([])
  }

  /** Collecting a concatenated operand list is concatenating the collected texts. */
  lemma {:induction false} CollectTextConcat(decode: seq<byte> -> Outcome<string>, a: seq<Operand>, b: seq<Operand>)
    ensures CollectText(decode, a + b).Success? <==> CollectText(decode, a).Success? && CollectText(decode, b).Success?
    ensures CollectText(decode, a + b).Success? ==>
      CollectText(decode, a + b).value == CollectText(decode, a).value + CollectText(decode, b).value
    decreases a
  {
    if a == [] {
      assert a + b == b;
    } else {
      assert (a + b)[0] == a[0];
      assert (a + b)[1..] == a[1..] + b;
      CollectTextConcat(decode, a[1..], b);
    }
  }

  /** Two adjacent strings are joined with no separator. */
  lemma AdjacentStringsJoin(decode: seq<byte> -> Outcome<string>, a: seq<byte>, fa: StringFormat, b: seq<byte>, fb: StringFormat)
    requires decode(a).Success? && decode(b).Success?
    ensures CollectText(decode, [Str(a, fa), Str(b, fb)]) == Success(decode(a).value + decode(b).value)
  {
    var ops := [Str(a, fa), Str(b, fb)];
    assert ops[1..] == [Str(b, fb)] && ops[1..][1..] == [];
    assert CollectText(decode, ops[1..][1..]) == Success([]);
    assert CollectText(decode, ops[1..]) == Success(decode(b).value + []);
    assert decode(b).value + [] == decode(b).value;
  }

  /** A nested array contributes its own collected text followed by one space. */
  lemma NestedArrayText(decode: seq<byte> -> Outcome<string>, items: seq<Operand>)
    ensures CollectText(decode, [Array(items)]).Success? <==> CollectText(decode, items).Success?
    ensures CollectText(decode, items).Success? ==>
      CollectText(decode, [Array(items)]).value == CollectText(decode, items).value + " "
  {
    var ops := [Array(items)];
    assert ops[0] == Array(items) && ops[1..] == [];
    assert CollectText(decode, ops[1..]) == Success([]);
    if CollectText(decode, items).Success? {
      var inner := CollectText(decode, items).value;
      assert OperandText(decode, ops[0]) == Success(inner + " ");
      assert (inner + " ") + [] == inner + " ";
    }
  }

  /**
    The usual `TJ` operand, one array of two strings around a kerning number: the two
    texts, a space between them only for a kerning below -100, and the array's closing space.
  */
  lemma TJArrayText(decode: seq<byte> -> Outcome<string>, a: seq<byte>, fa: StringFormat, n: int,
                    b: seq<byte>, fb: StringFormat)
    requires decode(a).Success? && decode(b).Success?
    ensures CollectText(decode, [Array([Str(a, fa), Integer(n), Str(b, fb)])])
         == Success(decode(a).value + (if n < -100 then " " else []) + decode(b).value + " ")
  {
    var items := [Str(a, fa), Integer(n), Str(b, fb)];
    var gap := if n < -100 then " " else [];
    assert items == [Str(a, fa)] + ([Integer(n)] + [Str(b, fb)]);
    CollectTextConcat(decode, [Str(a, fa)], [Integer(n)] + [Str(b, fb)]);
    CollectTextConcat(decode, [Integer(n)], [Str(b, fb)]);
    assert [Str(a, fa)][1..] == [] && [Integer(n)][1..] == [] && [Str(b, fb)][1..] == [];
    assert CollectText(decode, [Str(a, fa)]) == Success(decode(a).value + []);
    assert CollectText(decode, [Integer(n)]) == Success(gap + []);
    assert CollectText(decode, [Str(b, fb)]) == Success(decode(b).value + []);
    assert decode(a).value + [] == decode(a).value && gap + [] == gap && decode(b).value + [] == decode(b).value;
    NestedArrayText(decode, items);
    assert decode(a).value + (gap + decode(b).value) + " " == decode(a).value + gap + decode(b).value + " ";
  }

  /** No string operand anywhere, nested arrays included. */
  predicate NoStrings(operands: seq<Operand>)
    decreases operands
  {
    forall i :: 0 <= i < |operands| ==> !operands[i].Str? && (operands[i].Array? ==> NoStrings(operands[i].items))
  }

  /** Spaces the spacing rules produce: one per nested array and one per integer below -100. */
  function GapCount(operands: seq<Operand>): nat
    decreases operands
  {
    if operands == [] then 0
    else
      var head :=
        match operands[0]
        case Array(items) => GapCount(items) + 1
        case Integer(i) => if i < -100 then 1 else 0
        case _ => 0;
      head + GapCount(operands[1..])
  }

  function Spaces(n: nat): (r: string)
    ensures |r| == n && forall i :: 0 <= i < n ==> r[i] == ' '
  {
    seq(n, _ => ' ')
  }

  /**
    Without strings the collected text is only the spacing: as many spaces as there are
    nested arrays and integers below -100, however deep; numbers of any other value,
    reals and other operands add nothing.
  */
  lemma {:induction false} SpacingWithoutStrings(decode: seq<byte> -> Outcome<string>, operands: seq<Operand>)
    requires NoStrings(operands)
    ensures CollectText(decode, operands) == Success(Spaces(GapCount(operands)))
    decreases operands
  {
    if operands != [] {
      var o := operands[0];
      assert NoStrings(operands[1..]) by {
        forall i | 0 <= i < |operands[1..]|
          ensures !operands[1..][i].Str? && (operands[1..][i].Array? ==> NoStrings(operands[1..][i].items))
        {
          assert operands[1..][i] == operands[i + 1];
        }
      }
      SpacingWithoutStrings(decode, operands[1..]);
      var tail := Spaces(GapCount(operands[1..]));
      match o
      case Array(items) =>
        SpacingWithoutStrings(decode, items);
        assert Spaces(GapCount(items)) + " " + tail == Spaces(GapCount(operands));
      case Integer(i) =>
        assert (if i < -100 then " " else []) + tail == Spaces(GapCount(operands));
      case Null | Boolean(_) | Real | Name(_) | Other =>
        assert [] + tail == tail;
    }
  }

  /** The walk's state: the current font (as named by the last `Tf`) and its encoding. */
  datatype TextState = TextState(font: Option<FontName>, encoding: Option<string>)

  /** No `Tf` seen yet. */
  const InitialState: TextState := TextState(None, None)

  /** The font-table key the mapper is asked with: the current font, or the empty name. */
  function FontKey(st: TextState): FontName
  {
    st.font.GetOr([])
  }

  /**
    `Tf`: the first operand, when it is a name, becomes the current font; any other
    operand makes it absent. The encoding is looked up under the font key, so an absent
    font looks up the empty name. A `Tf` without operands aborts.
  */
  function SelectFont(op: Operation, encodings: map<FontName, string>): (r: Outcome<TextState>)
    ensures r.Failure? <==> op.operands == []
    ensures r.Failure? ==> r.error == MissingFontOperand
    ensures r.Success? ==> (r.value.font.Some? <==> op.operands[0].Name?)
    ensures r.Success? && op.operands[0].Name? ==> r.value.font.value == op.operands[0].name
    ensures r.Success? ==> (r.value.encoding.Some? <==> FontKey(r.value) in encodings)
    ensures r.Success? && r.value.encoding.Some? ==> r.value.encoding.value == encodings[FontKey(r.value)]
  {
    if op.operands == [] then Failure(MissingFontOperand)
    else
      var font := if op.operands[0].Name? then Some(op.operands[0].name) else None;
      var key := font.GetOr([]);
      Success(TextState(font, if key in encodings then Some(encodings[key]) else None))
  }

  /**
    One string operand of a `Tj`: decoded, run through the rules, and re-encoded only if
    some rule matched; any other operand is kept.
  */
  function RewriteTjOperand(mapper: UnicodeMapper, font: FontName, operand: Operand,
                            rules: seq<Rule>, lib: Library): (r: Outcome<Operand>)
    ensures !operand.Str? ==> r == Success(operand)
    ensures operand.Str? ==> (r.Success? <==> MapperDecode(mapper, font, operand.bytes, lib).Success?)
    ensures r.Success? && operand.Str? ==> r.value.Str? && r.value.format == operand.format
    ensures r.Success? && operand.Str? && !SomeKeyIn(MapperDecode(mapper, font, operand.bytes, lib).value, rules) ==>
      r.value == operand
    ensures r.Success? && operand.Str? && SomeKeyIn(MapperDecode(mapper, font, operand.bytes, lib).value, rules) ==>
      var text := MapperDecode(mapper, font, operand.bytes, lib).value;
      r.value.bytes == MapperEncode(mapper, font, ApplyRules(text, rules).text, lib)
  {
    match operand
    case Str(bytes, format) =>
      var text :- MapperDecode(mapper, font, bytes, lib);
      var sub := ApplyRules(text, rules);
      ModifiedIffSomeKeyIn(text, rules);
      Success(if sub.modified then Str(MapperEncode(mapper, font, sub.text, lib), format) else operand)
    case _ => Success(operand)
  }

  /** All operands of a `Tj`, in order; the first failing decode aborts. */
  function RewriteTjOperands(mapper: UnicodeMapper, font: FontName, operands: seq<Operand>,
                             rules: seq<Rule>, lib: Library): (r: Outcome<seq<Operand>>)
    ensures r.Success? <==> forall i :: 0 <= i < |operands| ==> RewriteTjOperand(mapper, font, operands[i], rules, lib).Success?
    ensures r.Success? ==> |r.value| == |operands|
    ensures r.Success? ==> forall i :: 0 <= i < |operands| ==>
      RewriteTjOperand(mapper, font, operands[i], rules, lib) == Success(r.value[i])
    decreases |operands|
  {
    if operands == [] then Success([])
    else
      var head :- RewriteTjOperand(mapper, font, operands[0], rules, lib);
      var tail :- RewriteTjOperands(mapper, font, operands[1..], rules, lib);
      Success([head] + tail)
  }

  /**
    `Tj` under the current state: skipped unless the encoding is rewritable; otherwise
    each string operand is rewritten in place and the operator stays `Tj`.
  */
  function RewriteTj(st: TextState, op: Operation, mapper: UnicodeMapper,
                     rules: seq<Rule>, lib: Library): (r: Outcome<Operation>)
    ensures !ValidEncoding(st.encoding) ==> r == Success(op)
    ensures ValidEncoding(st.encoding) ==>
      (r.Success? <==> forall i :: 0 <= i < |op.operands| ==> RewriteTjOperand(mapper, FontKey(st), op.operands[i], rules, lib).Success?)
    ensures r.Success? ==> r.value.operator == op.operator && |r.value.operands| == |op.operands|
    ensures r.Success? && ValidEncoding(st.encoding) ==> forall i :: 0 <= i < |op.operands| ==>
      RewriteTjOperand(mapper, FontKey(st), op.operands[i], rules, lib) == Success(r.value.operands[i])
  {
    if !ValidEncoding(st.encoding) then Success(op)
    else
      var operands :- RewriteTjOperands(mapper, FontKey(st), op.operands, rules, lib);
      Success(Operation(op.operator, operands))
  }

  /** The codec the walk decodes `TJ` strings with: the mapper under the current font key. */
  function FontDecoder(st: TextState, mapper: UnicodeMapper, lib: Library): seq<byte> -> Outcome<string>
  {
    b => MapperDecode(mapper, FontKey(st), b, lib)
  }

  /**
    `TJ` under the current state: skipped unless the encoding is rewritable; otherwise the
    operands' text is collected and run through the rules. If some rule matched, the whole
    operation becomes a `Tj` with one literal string: the new text encoded by the library
    codec under the current encoding. Otherwise the operation is kept as it was.
  */
  function RewriteTJ(st: TextState, op: Operation, mapper: UnicodeMapper,
                     rules: seq<Rule>, lib: Library): (r: Outcome<Operation>)
    ensures !ValidEncoding(st.encoding) ==> r == Success(op)
    ensures ValidEncoding(st.encoding) ==> (r.Success? <==> CollectText(FontDecoder(st, mapper, lib), op.operands).Success?)
    ensures r.Success? && ValidEncoding(st.encoding) ==>
      var text := CollectText(FontDecoder(st, mapper, lib), op.operands).value;
      && (!SomeKeyIn(text, rules) ==> r.value == op)
      && (SomeKeyIn(text, rules) ==>
            r.value == Operation("Tj", [Str(lib.encodeText(st.encoding, ApplyRules(text, rules).text), Literal)]))
  {
    if !ValidEncoding(st.encoding) then Success(op)
    else
      var text :- CollectText(FontDecoder(st, mapper, lib), op.operands);
      var sub := ApplyRules(text, rules);
      ModifiedIffSomeKeyIn(text, rules);
      if sub.modified then Success(Operation("Tj", [Str(lib.encodeText(st.encoding, sub.text), Literal)]))
      else Success(op)
  }

  /** The state after an operation: only `Tf` changes it. */
  function NextState(st: TextState, op: Operation, encodings: map<FontName, string>): Outcome<TextState>
  {
    if op.operator == "Tf" then SelectFont(op, encodings) else Success(st)
  }

  /** The operation as the walk leaves it, given the state before it. */
  function RewriteOperation(st: TextState, op: Operation, mapper: UnicodeMapper,
                            rules: seq<Rule>, lib: Library): Outcome<Operation>
  {
    if op.operator == "Tj" then RewriteTj(st, op, mapper, rules, lib)
    else if op.operator == "TJ" then RewriteTJ(st, op, mapper, rules, lib)
    else Success(op)
  }

  /** The walk from state `st` over `ops`, in order; the first failing operation aborts. */
  function Walk(st: TextState, ops: seq<Operation>, encodings: map<FontName, string>,
                mapper: UnicodeMapper, rules: seq<Rule>, lib: Library): (r: Outcome<seq<Operation>>)
    ensures r.Success? ==> |r.value| == |ops|
    ensures r.Success? ==> forall i :: 0 <= i < |ops| && ops[i].operator != "Tj" && ops[i].operator != "TJ" ==>
      r.value[i] == ops[i]
    ensures r.Success? ==> forall i :: 0 <= i < |ops| ==>
      r.value[i].operator == ops[i].operator || (ops[i].operator == "TJ" && r.value[i].operator == "Tj")
    decreases |ops|
  {
    if ops == [] then Success([])
    else
      var next :- NextState(st, ops[0], encodings);
      var head :- RewriteOperation(st, ops[0], mapper, rules, lib);
      var tail :- Walk(next, ops[1..], encodings, mapper, rules, lib);
      Success([head] + tail)
  }

  /** The state after the operations `ops`, starting from `st`: the fold of `NextState`. */
  function StateAfter(st: TextState, ops: seq<Operation>, encodings: map<FontName, string>): Outcome<TextState>
    decreases |ops|
  {
    if ops == [] then Success(st)
    else
      var next :- NextState(st, ops[0], encodings);
      StateAfter(next, ops[1..], encodings)
  }

  /** A successful walk is the first operation rewritten, followed by the walk of the rest. */
  lemma WalkStep(st: TextState, ops: seq<Operation>, encodings: map<FontName, string>,
                 mapper: UnicodeMapper, rules: seq<Rule>, lib: Library)
    requires Walk(st, ops, encodings, mapper, rules, lib).Success? && ops != []
    ensures NextState(st, ops[0], encodings).Success?
    ensures RewriteOperation(st, ops[0], mapper, rules, lib).Success?
    ensures Walk(NextState(st, ops[0], encodings).value, ops[1..], encodings, mapper, rules, lib).Success?
    ensures Walk(st, ops, encodings, mapper, rules, lib).value
         == [RewriteOperation(st, ops[0], mapper, rules, lib).value]
            + Walk(NextState(st, ops[0], encodings).value, ops[1..], encodings, mapper, rules, lib).value
  {
  }

  /** The state after a non-empty prefix is the state the rest of that prefix leaves after the first step. */
  lemma StateAfterStep(st: TextState, ops: seq<Operation>, encodings: map<FontName, string>, i: nat)
    requires 0 < i <= |ops| && NextState(st, ops[0], encodings).Success?
    ensures StateAfter(st, ops[..i], encodings) == StateAfter(NextState(st, ops[0], encodings).value, ops[1..][..i - 1], encodings)
  {
    assert ops[..i][0] == ops[0];
    assert ops[..i][1..] == ops[1..][..i - 1];
  }

  /** Extending a prefix by one operation applies `NextState` to the state the prefix leaves, unless that prefix already failed. */
  lemma {:induction false} StateAfterSnoc(st: TextState, ops: seq<Operation>, encodings: map<FontName, string>, i: nat)
    requires i < |ops|
    ensures StateAfter(st, ops[..i + 1], encodings)
         == if StateAfter(st, ops[..i], encodings).Success?
            then NextState(StateAfter(st, ops[..i], encodings).value, ops[i], encodings)
            else StateAfter(st, ops[..i], encodings)
    decreases i
  {
    if i == 0 {
      assert ops[..1][1..] == [];
      assert ops[..0] == [];
    } else if NextState(st, ops[0], encodings).Success? {
      var next := NextState(st, ops[0], encodings).value;
      StateAfterStep(st, ops, encodings, i);
      StateAfterStep(st, ops, encodings, i + 1);
      StateAfterSnoc(next, ops[1..], encodings, i - 1);
      assert ops[1..][i - 1] == ops[i];
    } else {
      assert ops[..i][0] == ops[0];
      assert ops[..i + 1][0] == ops[0];
    }
  }

  /** With no `Tf` among the first `i` operations, the state is still the one the walk started from. */
  lemma {:induction false} StateAfterNoTf(st: TextState, ops: seq<Operation>, encodings: map<FontName, string>, i: nat)
    requires i <= |ops|
    requires forall k :: 0 <= k < i ==> ops[k].operator != "Tf"
    ensures StateAfter(st, ops[..i], encodings) == Success(st)
    decreases i
  {
    if i == 0 {
      assert ops[..0] == [];
    } else {
      StateAfterNoTf(st, ops, encodings, i - 1);
      StateAfterSnoc(st, ops, encodings, i - 1);
    }
  }

  /**
    The state before operation `i` is the one the last `Tf` before it selected: once the
    operations before that `Tf` went through, what follows it up to `i` changes nothing.
  */
  lemma {:induction false} StateAfterLastTf(st: TextState, ops: seq<Operation>, encodings: map<FontName, string>, j: nat, i: nat)
    requires j < i <= |ops|
    requires ops[j].operator == "Tf"
    requires forall k :: j < k < i ==> ops[k].operator != "Tf"
    requires StateAfter(st, ops[..j], encodings).Success?
    ensures StateAfter(st, ops[..i], encodings) == SelectFont(ops[j], encodings)
    decreases i
  {
    StateAfterSnoc(st, ops, encodings, i - 1);
    if i > j + 1 {
      StateAfterLastTf(st, ops, encodings, j, i - 1);
    }
  }

  /**
    The walk is pointwise: operation `i` of the result is operation `i` of the input
    rewritten under the state that the operations before it leave behind.
  */
  lemma {:induction false} WalkPointwise(st: TextState, ops: seq<Operation>, encodings: map<FontName, string>,
                                         mapper: UnicodeMapper, rules: seq<Rule>, lib: Library, i: nat)
    requires Walk(st, ops, encodings, mapper, rules, lib).Success?
    requires i < |ops|
    ensures StateAfter(st, ops[..i], encodings).Success?
    ensures RewriteOperation(StateAfter(st, ops[..i], encodings).value, ops[i], mapper, rules, lib)
         == Success(Walk(st, ops, encodings, mapper, rules, lib).value[i])
    decreases i
  {
    WalkStep(st, ops, encodings, mapper, rules, lib);
    if i == 0 {
      assert ops[..0] == [];
    } else {
      var next := NextState(st, ops[0], encodings).value;
      WalkPointwise(next, ops[1..], encodings, mapper, rules, lib, i - 1);
      StateAfterStep(st, ops, encodings, i);
      assert ops[1..][i - 1] == ops[i];
    }
  }

  /** The operation's text holds no rule key, under the given state. */
  predicate NoKeyInText(st: TextState, op: Operation, mapper: UnicodeMapper, rules: seq<Rule>, lib: Library)
  {
    && (op.operator == "Tj" ==> forall o :: o in op.operands && o.Str? && MapperDecode(mapper, FontKey(st), o.bytes, lib).Success? ==>
          !SomeKeyIn(MapperDecode(mapper, FontKey(st), o.bytes, lib).value, rules))
    && (op.operator == "TJ" && CollectText(FontDecoder(st, mapper, lib), op.operands).Success? ==>
          !SomeKeyIn(CollectText(FontDecoder(st, mapper, lib), op.operands).value, rules))
  }

  /** When no rule key appears in any decoded text of the page, the walk changes nothing. */
  lemma {:induction false} WalkWithoutMatchIsIdentity(st: TextState, ops: seq<Operation>, encodings: map<FontName, string>,
                                   mapper: UnicodeMapper, rules: seq<Rule>, lib: Library)
    requires Walk(st, ops, encodings, mapper, rules, lib).Success?
    requires forall i :: 0 <= i < |ops| && StateAfter(st, ops[..i], encodings).Success? ==>
      NoKeyInText(StateAfter(st, ops[..i], encodings).value, ops[i], mapper, rules, lib)
    ensures Walk(st, ops, encodings, mapper, rules, lib).value == ops
  {
    var out := Walk(st, ops, encodings, mapper, rules, lib).value;
    forall i | 0 <= i < |ops|
      ensures out[i] == ops[i]
    {
      WalkPointwise(st, ops, encodings, mapper, rules, lib, i);
      var sti := StateAfter(st, ops[..i], encodings).value;
      if ops[i].operator == "Tj" && ValidEncoding(sti.encoding) {
        forall k | 0 <= k < |ops[i].operands|
          ensures out[i].operands[k] == ops[i].operands[k]
        {
          assert ops[i].operands[k] in ops[i].operands;
        }
      }
    }
  }

  /** The state's encoding is absent or one of the page's encodings. */
  predicate EncodingFromTable(st: TextState, encodings: map<FontName, string>)
  {
    st.encoding.None? || st.encoding.value in encodings.Values
  }

  lemma {:induction false} StateAfterKeepsEncodingFromTable(st: TextState, ops: seq<Operation>, encodings: map<FontName, string>)
    requires EncodingFromTable(st, encodings)
    requires StateAfter(st, ops, encodings).Success?
    ensures EncodingFromTable(StateAfter(st, ops, encodings).value, encodings)
    decreases |ops|
  {
    if ops != [] {
      var next := NextState(st, ops[0], encodings).value;
      if ops[0].operator == "Tf" && next.encoding.Some? {
        assert encodings[FontKey(next)] in encodings.Values;
      }
      StateAfterKeepsEncodingFromTable(next, ops[1..], encodings);
    }
  }

  /** On a page none of whose fonts has a rewritable encoding, the walk changes nothing. */
  lemma {:induction false} WalkSkipsUnsupportedFonts(ops: seq<Operation>, encodings: map<FontName, string>,
                                  mapper: UnicodeMapper, rules: seq<Rule>, lib: Library)
    requires forall n :: n in encodings ==> !ValidEncoding(Some(encodings[n]))
    requires Walk(InitialState, ops, encodings, mapper, rules, lib).Success?
    ensures Walk(InitialState, ops, encodings, mapper, rules, lib).value == ops
  {
    var out := Walk(InitialState, ops, encodings, mapper, rules, lib).value;
    forall i | 0 <= i < |ops|
      ensures out[i] == ops[i]
    {
      WalkPointwise(InitialState, ops, encodings, mapper, rules, lib, i);
      StateAfterKeepsEncodingFromTable(InitialState, ops[..i], encodings);
      var sti := StateAfter(InitialState, ops[..i], encodings).value;
      assert !ValidEncoding(sti.encoding);
    }
  }

  /** A `Tf` without operands anywhere on the page aborts the walk. */
  lemma {:induction false} WalkFailsOnBareTf(st: TextState, ops: seq<Operation>, encodings: map<FontName, string>,
                                             mapper: UnicodeMapper, rules: seq<Rule>, lib: Library, i: nat)
    requires i < |ops| && ops[i].operator == "Tf" && ops[i].operands == []
    ensures Walk(st, ops, encodings, mapper, rules, lib).Failure?
    decreases i
  {
    if i > 0 && NextState(st, ops[0], encodings).Success? {
      WalkFailsOnBareTf(NextState(st, ops[0], encodings).value, ops[1..], encodings, mapper, rules, lib, i - 1);
    }
  }

  /** Every `Tf` among the operations has at least one operand. */
  predicate TfsHaveOperands(ops: seq<Operation>)
  {
    forall i :: 0 <= i < |ops| && ops[i].operator == "Tf" ==> ops[i].operands != []
  }

  /** Every `Identity-H` font of the table has a transformed CMap, so no decode can abort. */
  predicate IdentityFontsHaveCMaps(mapper: UnicodeMapper)
  {
    forall n :: n in mapper.maps && mapper.maps[n].encoding == IdentityH ==> mapper.maps[n].unicodeMap.Some?
  }

  /** With every `Identity-H` font backed by a CMap, rewriting one operation cannot abort. */
  lemma RewriteOperationSucceeds(st: TextState, op: Operation, mapper: UnicodeMapper, rules: seq<Rule>, lib: Library)
    requires IdentityFontsHaveCMaps(mapper)
    ensures RewriteOperation(st, op, mapper, rules, lib).Success?
  {
    var decode := FontDecoder(st, mapper, lib);
    forall b | true
      ensures decode(b).Success?
    {
      assert decode(b) == MapperDecode(mapper, FontKey(st), b, lib);
    }
    assert CollectText(decode, op.operands).Success?;
    forall i | 0 <= i < |op.operands|
      ensures RewriteTjOperand(mapper, FontKey(st), op.operands[i], rules, lib).Success?
    {
      if op.operands[i].Str? {
        assert MapperDecode(mapper, FontKey(st), op.operands[i].bytes, lib).Success?;
      }
    }
  }

  /**
    The walk aborts only on a bare `Tf` or on an `Identity-H` decode without a CMap: when
    neither can happen, it succeeds.
  */
  lemma {:induction false} WalkSucceeds(st: TextState, ops: seq<Operation>, encodings: map<FontName, string>,
                                        mapper: UnicodeMapper, rules: seq<Rule>, lib: Library)
    requires TfsHaveOperands(ops)
    requires IdentityFontsHaveCMaps(mapper)
    ensures Walk(st, ops, encodings, mapper, rules, lib).Success?
    decreases |ops|
  {
    if ops != [] {
      assert ops[0].operator == "Tf" ==> ops[0].operands != [];
      assert NextState(st, ops[0], encodings).Success?;
      RewriteOperationSucceeds(st, ops[0], mapper, rules, lib);
      assert TfsHaveOperands(ops[1..]) by {
        forall i | 0 <= i < |ops[1..]| && ops[1..][i].operator == "Tf"
          ensures ops[1..][i].operands != []
        {
          assert ops[1..][i] == ops[i + 1];
        }
      }
      WalkSucceeds(NextState(st, ops[0], encodings).value, ops[1..], encodings, mapper, rules, lib);
    }
  }

  /** Every operation's rewrite succeeds under the state the operations before it leave behind. */
  predicate RewritesSucceed(st: TextState, ops: seq<Operation>, encodings: map<FontName, string>,
                            mapper: UnicodeMapper, rules: seq<Rule>, lib: Library)
  {
    forall i :: 0 <= i < |ops| && StateAfter(st, ops[..i], encodings).Success? ==>
      RewriteOperation(StateAfter(st, ops[..i], encodings).value, ops[i], mapper, rules, lib).Success?
  }

  /** `TfsHaveOperands` of a non-empty list: the first operation, then the rest. */
  lemma TfsHaveOperandsStep(ops: seq<Operation>)
    requires ops != []
    ensures TfsHaveOperands(ops) <==> (ops[0].operator == "Tf" ==> ops[0].operands != []) && TfsHaveOperands(ops[1..])
  {
    assert forall i :: 0 <= i < |ops[1..]| ==> ops[1..][i] == ops[i + 1];
  }

  /** `RewritesSucceed` of a non-empty list: the first rewrite, then the rest from the next state. */
  lemma RewritesSucceedStep(st: TextState, ops: seq<Operation>, encodings: map<FontName, string>,
                            mapper: UnicodeMapper, rules: seq<Rule>, lib: Library)
    requires ops != [] && NextState(st, ops[0], encodings).Success?
    ensures RewritesSucceed(st, ops, encodings, mapper, rules, lib) <==>
      && RewriteOperation(st, ops[0], mapper, rules, lib).Success?
      && RewritesSucceed(NextState(st, ops[0], encodings).value, ops[1..], encodings, mapper, rules, lib)
  {
    var next := NextState(st, ops[0], encodings).value;
    var rest := ops[1..];
    assert ops[..0] == [];
    forall i | 0 <= i < |rest|
      ensures StateAfter(st, ops[..i + 1], encodings) == StateAfter(next, rest[..i], encodings)
      ensures ops[i + 1] == rest[i]
    {
      StateAfterStep(st, ops, encodings, i + 1);
    }
    if RewritesSucceed(st, ops, encodings, mapper, rules, lib) {
      forall i | 0 <= i < |rest| && StateAfter(next, rest[..i], encodings).Success?
        ensures RewriteOperation(StateAfter(next, rest[..i], encodings).value, rest[i], mapper, rules, lib).Success?
      {
        assert StateAfter(st, ops[..i + 1], encodings) == StateAfter(next, rest[..i], encodings);
      }
    }
    if RewriteOperation(st, ops[0], mapper, rules, lib).Success? && RewritesSucceed(next, rest, encodings, mapper, rules, lib) {
      forall i | 0 < i < |ops| && StateAfter(st, ops[..i], encodings).Success?
        ensures RewriteOperation(StateAfter(st, ops[..i], encodings).value, ops[i], mapper, rules, lib).Success?
      {
        assert StateAfter(st, ops[..i], encodings) == StateAfter(next, rest[..i - 1], encodings);
      }
    }
  }

  /**
    The walk aborts exactly at a bare `Tf` or at an operation whose rewrite aborts under
    the state the operations before it leave behind.
  */
  lemma {:induction false} WalkSucceedsIff(st: TextState, ops: seq<Operation>, encodings: map<FontName, string>,
                                           mapper: UnicodeMapper, rules: seq<Rule>, lib: Library)
    ensures Walk(st, ops, encodings, mapper, rules, lib).Success? <==>
      TfsHaveOperands(ops) && RewritesSucceed(st, ops, encodings, mapper, rules, lib)
    decreases |ops|
  {
    if ops != [] {
      TfsHaveOperandsStep(ops);
      if NextState(st, ops[0], encodings).Success? {
        RewritesSucceedStep(st, ops, encodings, mapper, rules, lib);
        WalkSucceedsIff(NextState(st, ops[0], encodings).value, ops[1..], encodings, mapper, rules, lib);
      }
    }
  }

  /**
    Under an `Identity-H` font the mapper has no encoder, so a `Tj` string whose text
    matches a rule is replaced by an empty string.
  */
  lemma IdentityHMatchEmptiesTjString(st: TextState, op: Operation, mapper: UnicodeMapper,
                                      rules: seq<Rule>, lib: Library, k: nat)
    requires ValidEncoding(st.encoding)
    requires FontKey(st) in mapper.maps && mapper.maps[FontKey(st)].encoding == IdentityH
    requires RewriteTj(st, op, mapper, rules, lib).Success?
    requires k < |op.operands| && op.operands[k].Str?
    requires SomeKeyIn(MapperDecode(mapper, FontKey(st), op.operands[k].bytes, lib).value, rules)
    ensures RewriteTj(st, op, mapper, rules, lib).value.operands[k] == Str([], op.operands[k].format)
  {
  }

  /** The page's encodings by font name, as read from its font dictionaries. */
  function PageEncodings(page: Page): (r: map<FontName, string>)
    ensures r.Keys == page.fonts.Keys
    ensures forall n :: n in r ==> r[n] == page.fonts[n].encoding
  {
    map n | n in page.fonts :: page.fonts[n].encoding
  }

  /**
    Rewrites one page with the whole rule list: builds the page's font table and
    encodings, walks its operations, and stores the result as the page's new content.
    Only the selected page changes, and its font resources and operation count stay.
  */
  function ReplaceText(doc: Document, pageNumber: nat, rules: seq<Rule>, lib: Library): (r: Outcome<Document>)
    ensures PageIndex(doc, pageNumber).Failure? ==> r == Failure(PageNumberNotFound(pageNumber))
    ensures r.Success? ==> PageIndex(doc, pageNumber).Success?
    ensures r.Success? ==> |r.value| == |doc|
    ensures r.Success? ==> forall j :: 0 <= j < |doc| && j != PageIndex(doc, pageNumber).value ==> r.value[j] == doc[j]
    ensures r.Success? ==>
      var index := PageIndex(doc, pageNumber).value;
      && FontTable(doc[index].fonts, lib).Success?
      && r.value[index].fonts == doc[index].fonts
      && Walk(InitialState, doc[index].operations, PageEncodings(doc[index]),
              UnicodeMapper(FontTable(doc[index].fonts, lib).value), rules, lib) == Success(r.value[index].operations)
    ensures PageIndex(doc, pageNumber).Success? ==>
      var index := PageIndex(doc, pageNumber).value;
      FontTable(doc[index].fonts, lib).Success? &&
      Walk(InitialState, doc[index].operations, PageEncodings(doc[index]),
           UnicodeMapper(FontTable(doc[index].fonts, lib).value), rules, lib).Success?
      ==> r.Success?
  {
    var table :- ExtractPageCMaps(doc, pageNumber, lib);
    match PageIndex(doc, pageNumber)
    case Failure(e) => Failure(e)
    case Success(index) =>
      var page := doc[index];
      var operations :- Walk(InitialState, page.operations, PageEncodings(page), UnicodeMapper(table), rules, lib);
      Success(doc[index := Page(page.fonts, operations)])
  }
}

=== FILE: substitution.dfy ===
/**
  The substitution engine: Rust's `str::contains` and `str::replace` on strings, and the
  ordered rule loop of the newer walk, which applies every rule in list order to the text
  produced by the rules before it and records whether any rule matched.
*/
module Substitution {

  /** One element of the rule list: every occurrence of `key` becomes `value`. */
  datatype Rule = Rule(key: string, value: string)

  /** Text after the rule loop, and whether some rule matched. */
  datatype Substituted = Substituted(text: string, modified: bool)

  /** `s.contains(key)`: `key` occurs in `s` at some position (the empty key occurs everywhere). */
  predicate Contains(s: string, key: string)
  {
    key <= s || (s != [] && Contains(s[1..], key))
  }

  /**
    `s.replace("", value)`: the empty pattern matches at every character boundary, so
    `value` is inserted before each character and once more at the end.
  */
  function Interleave(s: string, value: string): string
  {
    if s == [] then value else value + [s[0]] + Interleave(s[1..], value)
  }

  /**
    `s.replace(key, value)`: scanning left to right, each non-overlapping occurrence of
    `key` is replaced by `value` and the text between occurrences is kept.
  */
  function ReplaceAll(s: string, key: string, value: string): string
    decreases |s|
  {
    if key == [] then Interleave(s, value)
    else if s == [] then []
    else if key <= s then value + ReplaceAll(s[|key|..], key, value)
    else [s[0]] + ReplaceAll(s[1..], key, value)
  }

  /** `key` occurs in `s` starting at position `i`. */
  predicate OccursAt(s: string, key: string, i: int)
  {
    0 <= i <= |s| - |key| && s[i..i + |key|] == key
  }

  /** An occurrence past the first character is an occurrence in the rest of the text, one place earlier. */
  lemma OccursInTail(s: string, key: string, i: nat)
    requires s != [] && 1 <= i
    ensures OccursAt(s, key, i) <==> OccursAt(s[1..], key, i - 1)
  {
    if i + |key| <= |s| {
      var here, there := s[i..i + |key|], s[1..][i - 1..i - 1 + |key|];
      assert |here| == |there|;
      forall k | 0 <= k < |key|
        ensures here[k] == there[k]
      {
        assert here[k] == s[i + k];
        assert there[k] == s[1..][i - 1 + k];
      }
      assert here == there;
    }
  }

  /** `Contains` agrees with the positional definition of a substring occurrence. */
  lemma {:induction false} ContainsIffOccurrence(s: string, key: string)
    ensures Contains(s, key) <==> exists i :: OccursAt(s, key, i)
  {
    if key <= s {
      assert OccursAt(s, key, 0);
    } else if s == [] {
    } else {
      ContainsIffOccurrence(s[1..], key);
      if exists i :: OccursAt(s, key, i) {
        var i :| OccursAt(s, key, i);
        assert i != 0;
        OccursInTail(s, key, i);
      }
      if exists j :: OccursAt(s[1..], key, j) {
        var j :| OccursAt(s[1..], key, j);
        OccursInTail(s, key, j + 1);
      }
    }
  }

  /** Replacing a key that does not occur leaves the text as it was. */
  lemma {:induction false} ReplaceAllWithoutMatch(s: string, key: string, value: string)
    requires !Contains(s, key)
    ensures ReplaceAll(s, key, value) == s
  {
    if s != [] {
      ReplaceAllWithoutMatch(s[1..], key, value);
      assert s == [s[0]] + s[1..];
    }
  }

  /** Replacing a key by itself leaves every text as it was. */
  lemma {:induction false} ReplaceAllByItself(s: string, key: string)
    ensures ReplaceAll(s, key, key) == s
  {
    if key == [] {
      InterleaveEmpty(s);
    } else if s != [] {
      if key <= s {
        ReplaceAllByItself(s[|key|..], key);
        assert s == key + s[|key|..];
      } else {
        ReplaceAllByItself(s[1..], key);
        assert s == [s[0]] + s[1..];
      }
    }
  }

  lemma {:induction false} InterleaveEmpty(s: string)
    ensures Interleave(s, []) == s
  {
    if s != [] {
      InterleaveEmpty(s[1..]);
      assert s == [s[0]] + s[1..];
    }
  }

  /** A text that is exactly the key becomes exactly the value (for the empty key too). */
  lemma WholeTextReplaced(key: string, value: string)
    ensures ReplaceAll(key, key, value) == value
  {
    if key != [] {
      assert key[|key|..] == [];
    }
  }

  /** A non-empty key that is a prefix of the text occurs at position zero, and conversely. */
  lemma PrefixIsOccurrenceAtZero(s: string, key: string)
    ensures key <= s <==> OccursAt(s, key, 0)
  {
    if OccursAt(s, key, 0) {
      assert s[..|key|] == key;
    }
  }

  /** With no occurrence at position zero, `ReplaceAll` keeps the first character and carries on. */
  lemma ReplaceAllKeepsFirst(s: string, key: string, value: string)
    requires key != [] && s != [] && !OccursAt(s, key, 0)
    ensures ReplaceAll(s, key, value) == [s[0]] + ReplaceAll(s[1..], key, value)
  {
    PrefixIsOccurrenceAtZero(s, key);
  }

  /** No occurrence before position `i` means none before `i - 1` in the rest of the text. */
  lemma NoEarlierOccurrenceInTail(s: string, key: string, i: nat)
    requires s != [] && 1 <= i
    requires forall j :: 0 <= j < i ==> !OccursAt(s, key, j)
    ensures forall j :: 0 <= j < i - 1 ==> !OccursAt(s[1..], key, j)
  {
    forall j | 0 <= j < i - 1
      ensures !OccursAt(s[1..], key, j)
    {
      OccursInTail(s, key, j + 1);
    }
  }

  /**
    `ReplaceAll` replaces the leftmost occurrence and carries on after it: the text before
    it is kept, the occurrence becomes `value`, and the rest is replaced in turn, so
    occurrences never overlap and none is skipped.
  */
  lemma {:induction false} ReplaceAllFirstOccurrence(s: string, key: string, value: string, i: nat)
    requires key != [] && OccursAt(s, key, i)
    requires forall j :: 0 <= j < i ==> !OccursAt(s, key, j)
    ensures ReplaceAll(s, key, value) == s[..i] + value + ReplaceAll(s[i + |key|..], key, value)
    decreases i, 1
  {
    if i == 0 {
      ReplaceAllAtStart(s, key, value);
    } else {
      ReplaceAllFirstStep(s, key, value, i);
    }
  }

  /** An occurrence at the very start becomes `value`, and the rest is replaced in turn. */
  lemma ReplaceAllAtStart(s: string, key: string, value: string)
    requires key != [] && OccursAt(s, key, 0)
    ensures ReplaceAll(s, key, value) == s[..0] + value + ReplaceAll(s[0 + |key|..], key, value)
  {
    PrefixIsOccurrenceAtZero(s, key);
    assert s[..0] + value == value;
  }

  /** A later leftmost occurrence: the first character is kept and the rest of the text is handled. */
  lemma {:induction false} ReplaceAllFirstStep(s: string, key: string, value: string, i: nat)
    requires key != [] && 1 <= i && OccursAt(s, key, i)
    requires forall j :: 0 <= j < i ==> !OccursAt(s, key, j)
    ensures ReplaceAll(s, key, value) == s[..i] + value + ReplaceAll(s[i + |key|..], key, value)
    decreases i, 0
  {
    var t := s[1..];
    var rest := ReplaceAll(s[i + |key|..], key, value);
    assert ReplaceAll(t, key, value) == t[..i - 1] + value + rest by {
      OccursInTail(s, key, i);
      NoEarlierOccurrenceInTail(s, key, i);
      ReplaceAllFirstOccurrence(t, key, value, i - 1);
      DropOfTail(s, i - 1 + |key|);
    }
    assert ReplaceAll(s, key, value) == [s[0]] + ReplaceAll(t, key, value) by {
      ReplaceAllKeepsFirst(s, key, value);
    }
    JoinAfterFirst(s, i, ReplaceAll(s, key, value), ReplaceAll(t, key, value), value, rest);
  }

  /** Dropping `n` characters from the tail is dropping `n + 1` from the text. */
  lemma DropOfTail(s: string, n: nat)
    requires n + 1 <= |s|
    ensures s[1..][n..] == s[n + 1..]
  {
  }

  /** The sequence bookkeeping of `ReplaceAllFirstStep`, kept apart from `ReplaceAll`. */
  lemma JoinAfterFirst(s: string, i: nat, whole: string, tail: string, value: string, rest: string)
    requires 1 <= i <= |s|
    requires whole == [s[0]] + tail && tail == s[1..][..i - 1] + value + rest
    ensures whole == s[..i] + value + rest
  {
    assert [s[0]] + s[1..][..i - 1] == s[..i];
  }

  /** A text made of the key twice becomes the value twice (the empty key leaves one value). */
  lemma DoubledKeyReplaced(key: string, value: string)
    ensures ReplaceAll(key + key, key, value) == if key == [] then value else value + value
  {
    if key != [] {
      assert (key + key)[|key|..] == key;
      assert key <= key + key;
      WholeTextReplaced(key, value);
    }
  }

  /** One iteration of the rule loop: replace all occurrences if the key is contained. */
  function ApplyRule(acc: Substituted, rule: Rule): Substituted
  {
    if Contains(acc.text, rule.key) then Substituted(ReplaceAll(acc.text, rule.key, rule.value), true)
    else acc
  }

  /** The rule loop continued from `acc` over `rules`, in list order. */
  function ApplyRulesFrom(acc: Substituted, rules: seq<Rule>): Substituted
    decreases rules
  {
    if rules == [] then acc else ApplyRulesFrom(ApplyRule(acc, rules[0]), rules[1..])
  }

  /** The rule loop on freshly decoded text (`modified` starts false). */
  function ApplyRules(text: string, rules: seq<Rule>): Substituted
  {
    ApplyRulesFrom(Substituted(text, false), rules)
  }

  /** Some rule key occurs in `text`. */
  predicate SomeKeyIn(text: string, rules: seq<Rule>)
  {
    exists i :: 0 <= i < |rules| && Contains(text, rules[i].key)
  }

  /** The text the loop computes does not depend on the incoming flag, and the flag only accumulates. */
  lemma {:induction false} ApplyRulesFromSplit(acc: Substituted, rules: seq<Rule>)
    decreases rules
    ensures ApplyRulesFrom(acc, rules).text == ApplyRules(acc.text, rules).text
    ensures ApplyRulesFrom(acc, rules).modified == (acc.modified || ApplyRules(acc.text, rules).modified)
  {
    if rules != [] {
      var reset := Substituted(acc.text, false);
      ApplyRulesFromSplit(ApplyRule(acc, rules[0]), rules[1..]);
      ApplyRulesFromSplit(ApplyRule(reset, rules[0]), rules[1..]);
    }
  }

  /** The loop reports a modification exactly when some rule key occurs in the ORIGINAL text. */
  lemma {:induction false} ModifiedIffSomeKeyIn(text: string, rules: seq<Rule>)
    ensures ApplyRules(text, rules).modified <==> SomeKeyIn(text, rules)
  {
    if rules != [] {
      var acc := Substituted(text, false);
      var next := ApplyRule(acc, rules[0]);
      ApplyRulesFromSplit(next, rules[1..]);
      if Contains(text, rules[0].key) {
        assert ApplyRulesFrom(next, rules[1..]).modified;
      } else {
        assert next == acc;
        ModifiedIffSomeKeyIn(text, rules[1..]);
        if SomeKeyIn(text, rules) {
          var i :| 0 <= i < |rules| && Contains(text, rules[i].key);
          assert rules[1..][i - 1] == rules[i];
        }
        if SomeKeyIn(text, rules[1..]) {
          var j :| 0 <= j < |rules[1..]| && Contains(text, rules[1..][j].key);
          assert rules[j + 1] == rules[1..][j];
        }
      }
    }
  }

  /** When the loop reports no modification, the text is returned untouched. */
  lemma {:induction false} UnmodifiedMeansUnchanged(text: string, rules: seq<Rule>)
    ensures !ApplyRules(text, rules).modified ==> ApplyRules(text, rules).text == text
  {
    if rules != [] {
      var acc := Substituted(text, false);
      var next := ApplyRule(acc, rules[0]);
      ApplyRulesFromSplit(next, rules[1..]);
      if !Contains(text, rules[0].key) {
        UnmodifiedMeansUnchanged(text, rules[1..]);
      }
    }
  }

  /** Rules apply in list order: running `first + second` is running `first`, then `second` on its output. */
  lemma {:induction false} ApplyRulesConcat(text: string, first: seq<Rule>, second: seq<Rule>)
    ensures ApplyRules(text, first + second)
         == Substituted(ApplyRules(ApplyRules(text, first).text, second).text,
                        ApplyRules(text, first).modified || ApplyRules(ApplyRules(text, first).text, second).modified)
  {
    FoldConcat(Substituted(text, false), first, second);
    ApplyRulesFromSplit(ApplyRules(text, first), second);
  }

  lemma {:induction false} FoldConcat(acc: Substituted, first: seq<Rule>, second: seq<Rule>)
    decreases first
    ensures ApplyRulesFrom(acc, first + second) == ApplyRulesFrom(ApplyRulesFrom(acc, first), second)
  {
    if first != [] {
      assert (first + second)[1..] == first[1..] + second;
      FoldConcat(ApplyRule(acc, first[0]), first[1..], second);
    } else {
      assert first + second == second;
    }
  }

  /** Re-applying the whole rule list to text that no longer contains any key is a no-op. */
  lemma ReapplyIsNoOp(text: string, rules: seq<Rule>)
    requires !SomeKeyIn(ApplyRules(text, rules).text, rules)
    ensures ApplyRules(ApplyRules(text, rules).text, rules) == Substituted(ApplyRules(text, rules).text, false)
  {
    var once := ApplyRules(text, rules).text;
    ModifiedIffSomeKeyIn(once, rules);
    UnmodifiedMeansUnchanged(once, rules);
  }
}

=== FILE: unicode_tools.dfy ===
/**
  ToUnicode CMap handling and the per-font text codec ("Unicode mapper"): turning a parsed
  CMap's UTF-16BE payloads into strings, building a page's font table, and decoding or
  encoding the bytes of a string operand according to its font's encoding.
*/
module UnicodeTools {
  import opened Wrappers
  import opened PdfObjects
  import Utf16

  /** A transformed CMap: character code to Unicode text. */
  type UnicodeCMap = map<nat, string>

  /** The encoding name whose codes index the ToUnicode CMap directly. */
  const IdentityH: string := "Identity-H"

  /** What decoding yields for a font absent from the page's font table. */
  const NoFontText: string := "?NOFONT?"

  /** The big-endian 16-bit unit `hi << 8 | lo`. */
  function Unit(hi: byte, lo: byte): Utf16.u16
  {
    hi as int * 0x100 + lo as int
  }

  /** Big-endian 16-bit units of an even-length payload. */
  function Units(v: seq<byte>): (r: seq<Utf16.u16>)
    requires |v| % 2 == 0
    ensures |r| == |v| / 2
    ensures forall i :: 0 <= i < |r| ==> r[i] == v[2 * i] as int * 0x100 + v[2 * i + 1] as int
    decreases |v|
  {
    if v == [] then [] else [Unit(v[0], v[1])] + Units(v[2..])
  }

  /** The pairing loop over a payload, two bytes per step. */
  method PairUnits(v: seq<byte>) returns (be: seq<Utf16.u16>)
    requires |v| % 2 == 0
    ensures |be| == |v| / 2
    ensures forall j :: 0 <= j < |be| ==> be[j] == Unit(v[2 * j], v[2 * j + 1])
  {
    be := [];
    var i := 0;
    while i < |v|
      invariant 0 <= i <= |v| && i % 2 == 0
      invariant |be| == i / 2
      invariant forall j :: 0 <= j < |be| ==> be[j] == Unit(v[2 * j], v[2 * j + 1])
    {
      be := be + [Unit(v[i], v[i + 1])];
      i := i + 2;
    }
  }

  /** Exactly one unit, and that unit is a surrogate. */
  predicate IsLoneSurrogate(units: seq<Utf16.u16>)
  {
    |units| == 1 && Utf16.IsSurrogate(units[0])
  }

  /** A payload the transformation accepts without panicking. */
  predicate PayloadOk(v: seq<byte>)
  {
    |v| % 2 == 0 && (IsLoneSurrogate(Units(v)) || Utf16.Decode(Units(v)).Some?)
  }

  /**
    Turns a parsed CMap into a code-to-text map. An odd-length payload fails the length
    assertion and an ill-formed UTF-16 payload fails the unwrap of the decoder: both abort.
    Entries that are a single lone surrogate are dropped; every other entry keeps its code
    and maps to the UTF-16 decoding of its units.
  */
  function TransformUnicodeMap(cmap: RawCMap): (r: Outcome<UnicodeCMap>)
    ensures r.Success? <==> forall k :: k in cmap ==> PayloadOk(cmap[k])
    ensures r.Failure? ==> r.error == Panicked
    ensures r.Success? ==> r.value.Keys <= cmap.Keys
    ensures r.Success? ==> forall k :: k in cmap ==> (k in r.value <==> !IsLoneSurrogate(Units(cmap[k])))
    ensures r.Success? ==> forall k :: k in r.value ==> Utf16.Decode(Units(cmap[k])) == Some(r.value[k])
  {
    if forall k :: k in cmap ==> PayloadOk(cmap[k]) then
      Success(map k | k in cmap && !IsLoneSurrogate(Units(cmap[k])) :: Utf16.Decode(Units(cmap[k])).value)
    else
      Failure(Panicked)
  }

  /** No text is fabricated: each transformed value encodes back to exactly the units of its payload. */
  lemma TransformInventsNothing(cmap: RawCMap, k: nat)
    ensures TransformUnicodeMap(cmap).Success? && k in TransformUnicodeMap(cmap).value ==>
      Utf16.Encode(TransformUnicodeMap(cmap).value[k]) == Units(cmap[k])
  {
    if TransformUnicodeMap(cmap).Success? && k in TransformUnicodeMap(cmap).value {
      Utf16.EncodeDecode(Units(cmap[k]));
    }
  }

  /** One font of a page's font table. */
  datatype Font = Font(encoding: string, unicodeRawMap: Option<RawCMap>, unicodeMap: Option<UnicodeCMap>)

  /** Builds a font from its encoding name and, if available, its raw and transformed CMaps. */
  function NewFont(encoding: string, maps: Option<(RawCMap, UnicodeCMap)>): (f: Font)
    ensures f.encoding == encoding
    ensures f.unicodeRawMap.Some? <==> f.unicodeMap.Some?
    ensures f.unicodeMap.Some? <==> maps.Some?
    ensures maps.Some? ==> f.unicodeRawMap.value == maps.value.0 && f.unicodeMap.value == maps.value.1
  {
    if maps.Some? then Font(encoding, Some(maps.value.0), Some(maps.value.1))
    else Font(encoding, None, None)
  }

  /**
    The parsed CMap behind a ToUnicode entry, or `None` when the entry is absent, of an
    unexpected kind, or any library step (fetching, decompressing, parsing) fails.
  */
  function ParsedToUnicode(entry: ToUnicodeEntry, lib: Library): Option<RawCMap>
  {
    var stream :=
      match entry
      case Direct(s) => Some(s)
      case Indirect(target) => target
      case _ => None;
    if stream.Some? && stream.value.decompressed.Some? then lib.parseCMap(stream.value.decompressed.value)
    else None
  }

  /**
    The raw and transformed CMaps of one font. Library failures are soft (`None`); an
    entry of an unexpected kind and a malformed payload abort.
  */
  function LoadCMaps(entry: ToUnicodeEntry, lib: Library): (r: Outcome<Option<(RawCMap, UnicodeCMap)>>)
    ensures r.Success? <==>
      (!entry.OtherKind? &&
       (ParsedToUnicode(entry, lib).Some? ==> TransformUnicodeMap(ParsedToUnicode(entry, lib).value).Success?))
    ensures r.Success? ==> (r.value.Some? <==> ParsedToUnicode(entry, lib).Some?)
    ensures r.Success? && r.value.Some? ==> r.value.value.0 == ParsedToUnicode(entry, lib).value
    ensures r.Success? && r.value.Some? ==> TransformUnicodeMap(r.value.value.0) == Success(r.value.value.1)
  {
    if entry.OtherKind? then Failure(Panicked)
    else
      match ParsedToUnicode(entry, lib)
      case None => Success(None)
      case Some(raw) =>
        var unicode :- TransformUnicodeMap(raw);
        Success(Some((raw, unicode)))
  }

  /**
    A page's font table: one entry per page font, keyed by resource name, with the font's
    encoding name and its CMaps (both absent on a soft failure). Any aborting font aborts all.
  */
  function FontTable(fonts: map<FontName, FontDict>, lib: Library): (r: Outcome<map<FontName, Font>>)
    ensures r.Success? <==> forall n :: n in fonts ==> LoadCMaps(fonts[n].toUnicode, lib).Success?
    ensures r.Success? ==> r.value.Keys == fonts.Keys
    ensures r.Success? ==> forall n :: n in fonts ==> r.value[n].encoding == fonts[n].encoding
    ensures r.Success? ==> forall n :: n in fonts ==>
      (r.value[n].unicodeMap.Some? <==> ParsedToUnicode(fonts[n].toUnicode, lib).Some?)
    ensures r.Success? ==> forall n :: n in fonts ==> (r.value[n].unicodeRawMap.Some? <==> r.value[n].unicodeMap.Some?)
    ensures r.Success? ==> forall n :: n in fonts && r.value[n].unicodeMap.Some? ==>
      && r.value[n].unicodeRawMap == ParsedToUnicode(fonts[n].toUnicode, lib)
      && TransformUnicodeMap(r.value[n].unicodeRawMap.value) == Success(r.value[n].unicodeMap.value)
  {
    if forall n :: n in fonts ==> LoadCMaps(fonts[n].toUnicode, lib).Success? then
      Success(map n | n in fonts :: NewFont(fonts[n].encoding, LoadCMaps(fonts[n].toUnicode, lib).value))
    else
      Failure(Panicked)
  }

  /** The font table of the page a page number selects. */
  function ExtractPageCMaps(doc: Document, pageNumber: nat, lib: Library): (r: Outcome<map<FontName, Font>>)
    ensures PageIndex(doc, pageNumber).Failure? ==> r == Failure(PageNumberNotFound(pageNumber))
    ensures PageIndex(doc, pageNumber).Success? ==> r == FontTable(doc[PageIndex(doc, pageNumber).value].fonts, lib)
  {
    var index :- PageIndex(doc, pageNumber);
    FontTable(doc[index].fonts, lib)
  }

  /** The per-page codec: the page's font table. */
  datatype UnicodeMapper = UnicodeMapper(maps: map<FontName, Font>)

  /** Text of an `Identity-H` string: each single byte looked up in the CMap, hits concatenated in order. */
  function IdentityText(cmap: UnicodeCMap, bytes: seq<byte>): string
  {
    if bytes == [] then []
    else (if bytes[0] in cmap then cmap[bytes[0]] else []) + IdentityText(cmap, bytes[1..])
  }

  /** `IdentityText` distributes over concatenation of the input bytes. */
  lemma {:induction false} IdentityTextConcat(cmap: UnicodeCMap, a: seq<byte>, b: seq<byte>)
    ensures IdentityText(cmap, a + b) == IdentityText(cmap, a) + IdentityText(cmap, b)
  {
    if a != [] {
      assert (a + b)[1..] == a[1..] + b;
      IdentityTextConcat(cmap, a[1..], b);
    } else {
      assert a + b == b;
    }
  }

  /** Bytes the CMap does not map contribute nothing. */
  lemma {:induction false} IdentityTextUnmapped(cmap: UnicodeCMap, bytes: seq<byte>)
    requires forall i :: 0 <= i < |bytes| ==> bytes[i] !in cmap
    ensures IdentityText(cmap, bytes) == []
  {
    if bytes != [] {
      IdentityTextUnmapped(cmap, bytes[1..]);
    }
  }

  /** The byte loop of the `Identity-H` branch, appending each hit to the text built so far. */
  method IdentityDecodeLoop(cmap: UnicodeCMap, bytes: seq<byte>) returns (text: string)
    ensures text == IdentityText(cmap, bytes)
  {
    text := [];
    var i := 0;
    while i < |bytes|
      invariant 0 <= i <= |bytes|
      invariant text == IdentityText(cmap, bytes[..i])
    {
      IdentityTextConcat(cmap, bytes[..i], [bytes[i]]);
      assert bytes[..i + 1] == bytes[..i] + [bytes[i]];
      if bytes[i] in cmap {
        text := text + cmap[bytes[i]];
      }
      i := i + 1;
    }
    assert bytes[..i] == bytes;
  }

  /**
    Decodes a string operand's bytes under a font: unknown font gives the sentinel text;
    `Identity-H` looks single bytes up in the CMap (and aborts on a non-empty input when
    the font has no CMap); any other encoding goes to the library codec.
  */
  function MapperDecode(mapper: UnicodeMapper, font: FontName, bytes: seq<byte>, lib: Library): (r: Outcome<string>)
    ensures font !in mapper.maps ==> r == Success(NoFontText)
    ensures r.Failure? <==>
      font in mapper.maps && mapper.maps[font].encoding == IdentityH && bytes != [] && mapper.maps[font].unicodeMap.None?
    ensures font in mapper.maps && mapper.maps[font].encoding != IdentityH ==>
      r == Success(lib.decodeText(Some(mapper.maps[font].encoding), bytes))
    ensures font in mapper.maps && mapper.maps[font].encoding == IdentityH && mapper.maps[font].unicodeMap.Some? ==>
      r == Success(IdentityText(mapper.maps[font].unicodeMap.value, bytes))
  {
    if font !in mapper.maps then Success(NoFontText)
    else
      var f := mapper.maps[font];
      if f.encoding == IdentityH then
        if bytes == [] then Success([])
        else if f.unicodeMap.None? then Failure(Panicked)
        else Success(IdentityText(f.unicodeMap.value, bytes))
      else
        Success(lib.decodeText(Some(f.encoding), bytes))
  }

  /**
    Encodes text under a font: unknown font and `Identity-H` give no bytes (there is no
    reverse map); any other encoding goes to the library codec.
  */
  function MapperEncode(mapper: UnicodeMapper, font: FontName, text: string, lib: Library): (r: seq<byte>)
    ensures font !in mapper.maps || mapper.maps[font].encoding == IdentityH ==> r == []
    ensures font in mapper.maps && mapper.maps[font].encoding != IdentityH ==>
      r == lib.encodeText(Some(mapper.maps[font].encoding), text)
  {
    if font !in mapper.maps then []
    else if mapper.maps[font].encoding == IdentityH then []
    else lib.encodeText(Some(mapper.maps[font].encoding), text)
  }

  /**
    Round trip through the mapper: for a table-encoded font it is exactly the library
    codec's round trip; for an `Identity-H` font nothing survives; for an unknown font
    the sentinel comes back.
  */
  lemma MapperRoundTrip(mapper: UnicodeMapper, font: FontName, text: string, lib: Library)
    ensures font !in mapper.maps ==>
      MapperDecode(mapper, font, MapperEncode(mapper, font, text, lib), lib) == Success(NoFontText)
    ensures font in mapper.maps && mapper.maps[font].encoding == IdentityH ==>
      MapperDecode(mapper, font, MapperEncode(mapper, font, text, lib), lib) == Success([])
    ensures font in mapper.maps && mapper.maps[font].encoding != IdentityH ==>
      var e := Some(mapper.maps[font].encoding);
      MapperDecode(mapper, font, MapperEncode(mapper, font, text, lib), lib)
        == Success(lib.decodeText(e, lib.encodeText(e, text)))
  {
  }
}

=== FILE: utf16.dfy ===
/**
  UTF-16 as defined in section 2 of RFC 2781: a Unicode scalar value below 0x10000 is
  one 16-bit unit, any larger one is a high surrogate (0xD800..0xDBFF) followed by a low
  surrogate (0xDC00..0xDFFF). `Decode` plays the part of Rust's `String::from_utf16`,
  which fails on an unpaired surrogate; `Encode` is its inverse.
*/
module Utf16 {
  import opened Wrappers

  /** An unsigned 16-bit code unit. */
  type u16 = x: int | 0 <= x < 0x1_0000

  predicate IsSurrogate(u: u16) {
    0xD800 <= u <= 0xDFFF
  }

  predicate IsHighSurrogate(u: u16) {
    0xD800 <= u <= 0xDBFF
  }

  predicate IsLowSurrogate(u: u16) {
    0xDC00 <= u <= 0xDFFF
  }

  /** Decoding of section 2.2 of RFC 2781; `None` for an ill-formed sequence. */
  function Decode(units: seq<u16>): Option<string>
    decreases |units|
  {
    if units == [] then Some([])
    else if !IsSurrogate(units[0]) then
      match Decode(units[1..])
      case None => None
      case Some(rest) => Some([units[0] as char] + rest)
    else if IsHighSurrogate(units[0]) && |units| >= 2 && IsLowSurrogate(units[1]) then
      var scalar: int := 0x1_0000 + (units[0] as int - 0xD800) * 0x400 + (units[1] as int - 0xDC00);
      match Decode(units[2..])
      case None => None
      case Some(rest) => Some([scalar as char] + rest)
    else None
  }

  /** Encoding of one scalar value, section 2.1 of RFC 2781. */
  function EncodeChar(c: char): (r: seq<u16>)
    ensures 1 <= |r| <= 2
  {
    var n := c as int;
    if n < 0x1_0000 then [n]
    else [0xD800 + (n - 0x1_0000) / 0x400, 0xDC00 + (n - 0x1_0000) % 0x400]
  }

  function Encode(s: string): seq<u16>
  {
    if s == [] then [] else EncodeChar(s[0]) + Encode(s[1..])
  }

  /** Decoding what was encoded gives the string back. */
  lemma {:induction false} DecodeEncode(s: string)
    ensures Decode(Encode(s)) == Some(s)
  {
    if s != [] {
      var head := EncodeChar(s[0]);
      var units := head + Encode(s[1..]);
      DecodeEncode(s[1..]);
      if |head| == 1 {
        assert units[1..] == Encode(s[1..]);
      } else {
        assert units[2..] == Encode(s[1..]);
      }
      assert s == [s[0]] + s[1..];
    }
  }

  /** A successful decoding is exactly undone by encoding: the decoder invents no units. */
  lemma {:induction false} EncodeDecode(units: seq<u16>)
    requires Decode(units).Some?
    ensures Encode(Decode(units).value) == units
  {
    if units != [] {
      if !IsSurrogate(units[0]) {
        EncodeDecode(units[1..]);
        assert units == [units[0]] + units[1..];
      } else {
        EncodeDecode(units[2..]);
        assert units == [units[0], units[1]] + units[2..];
      }
    }
  }

  /** A lone surrogate is the shortest ill-formed sequence. */
  lemma LoneSurrogateIsIllFormed(u: u16)
    requires IsSurrogate(u)
    ensures Decode([u]).None?
  {
  }
}

=== FILE: wrappers.dfy ===
/** Failure-compatible Option and Result types used throughout the model. */
module Wrappers {

  /** An optional value; stands for Rust's `Option<T>`. */
  datatype Option<+T> = None | Some(value: T) {

    /** Returns the value in `Some`, or `default` when `None` (Rust's `unwrap_or`). */
    function GetOr(default: T): T {
      match this
      case Some(v) => v
      case None => default
    }
  }

  /** A success value or an error; stands for Rust's `Result<T, E>` and the `?` operator (`:-`). */
  datatype Result<+R, +E> = Success(value: R) | Failure(error: E) {

    predicate IsFailure() {
      Failure?
    }

    function PropagateFailure<U>(): Result<U, E>
      requires Failure?
    {
      Failure(error)
    }

    function Extract(): R
      requires Success?
    {
      value
    }
  }
}
